=== FILE: README.md ===
# wiki-tui page layout and navigation, in Dafny

This project models two parts of wiki-tui, the terminal Wikipedia reader.
The model is written in Dafny and its properties are proved there.

- **The default renderer** (`src/renderer/default_renderer.rs`). It walks the
  document tree of a Wikipedia page in pre-order and turns it into lines of
  styled words at a given terminal width.
  - On entering and on leaving a node it dispatches on the node's kind.
  - Text is split at whitespace into words that remember the index of the
    node they came from.
  - Synthetic words carry no index. These are the whitespace gaps and the
    disambiguation prefix.
  - Words are appended through `wrap_append`. It fills the current line,
    hands the rest to an optimal-fit line breaker, and indents and prefixes
    the continuation lines.
  - Every block ends on an empty line, through the idempotent
    `ensure_empty_line`, and no two empty lines are ever adjacent. A line
    that holds only a gap is not empty, so it can stand between two empty
    lines.
  - `add_whitespace` never puts a second gap after a gap, so no line ends in
    two synthetic words.
- **The page component** (`src/components/page.rs`). It holds:
  - the document;
  - the chosen renderer;
  - a cache of renders keyed by width;
  - the viewport that scrolls over the rendered lines;
  - the selected link, as a range of node indices;
  - the table-of-contents cursor.

  It reacts to actions: scrolling, selecting the first, previous, next or last
  link, opening the selected link, jumping to a header, switching renderer and
  resizing.

## Modules

| file | module | contents |
|---|---|---|
| `basics.dfy` | `Basics` | `Option`, the `u8`/`u16` ranges, saturating and truncating arithmetic |
| `document.dfy` | `Document` | the node tree and its kinds; pre-order indexing and the lemmas about it |
| `search.dfy` | `Search` | first and last match in a sequence (`find`, `filter(..).last()`) |
| `styles.dfy` | `Styles` | colours, modifiers, `Style::patch` |
| `words.dfy` | `Words` | words, lines, the line-breaker interface, `split_whitespace`, text tokens |
| `renderer.dfy` | `DefaultRenderer` | the renderer state and every step of the tree walk |
| `renderer_properties.dfy` | `RendererProperties` | text preservation through wrapping and the whole walk, layout of wrapped lines |
| `page.dfy` | `Actions`, `Page` | the page state, its operations and `update` |
| `page_properties.dfy` | `PageProperties` | round trips, no wrap-around in link selection, cache transparency |

### How the model reads the program

- **Link kinds.** The two files use different versions of the tree's node
  kinds. The renderer matches `WikiLink`, `RedLink`, `MediaLink` and
  `ExternalLink`. The page matches `Data::Link(Link::Internal(..))`.
  - The model has one kind, `Link(target)`, with four targets:
    `Internal(page)`, `Red(title)`, `Media(href, title)` and
    `External(href, title)`.
  - The renderer treats them as wiki, red, media and external links,
    respectively.
  - `open_link` loads the page of an `Internal` target only.
- **Tree indices.** The tree is a recursive datatype. Its node indices are
  assigned in pre-order, which the `Indexed` predicate states. The lemma
  `Document.PreOrderIndex` proves the `k`-th node of a subtree has index
  `root + k`.
- **The line breaker.** `textwrap::wrap_optimal_fit` is a parameter of type
  `Fitter`. Any function that cuts a non-empty batch into non-empty lines
  whose concatenation is the batch will do. Every property proved here holds
  for every such breaker.
- **Text preservation.** It is stated over tokens. The tokens of a line are
  the `(node index, content)` pairs of its real words, in order. Padding,
  prefixes and gaps are ignored.
- **Debug renderers.** They are a parameter of the page's `Env`, and so is the
  line breaker. `Renderer` has the four variants of a debug build.
- **Machine integers.** Terminal sizes and offsets are `U16`. The section
  count is `U8`. `len() as u16` and `y as u16` keep the low 16 bits.
- **Panics become preconditions.**
  - `u16` additions that would overflow in `scroll_down`.
  - The `usize` subtraction `max_idx_section - 1` on the branches that compute
    it.
  - The `todo!()` of `SelectTopLink` and `SelectBottomLink`.
  - The `unwrap`s of `select_header` and `open_link`.
- **Selection ranges.** The program selects a link, and finds a header's
  text, by the index range from the node to its last child
  (`Document.ChildRange`). That range leaves out the descendants of the last
  child. The selection operations take an `Extent`.
  - `ToLastChild` is the program's range. `Update` uses it, as the program
    does.
  - `ToLastDescendant` is the whole subtree (`Document.SubtreeRange`), which
    is the evidently intended range. The findings below give the details.

## Model

| member | source | states |
|---|---|---|
| `Basics.SaturatingSub` | src/components/page.rs:205-207 | `saturating_sub` never goes below zero and subtracts exactly when it can |
| `Basics.TruncateU16` | src/components/page.rs:181 | `as u16` keeps values below 2^16 and otherwise differs by a multiple of 2^16 |
| `Document.Nth` | src/components/page.rs:305-306 | looking up position `i` finds a node of the document exactly when `i` is below the node count |
| `Document.ChildRange` | src/components/page.rs:224-228 | the range starts at the node's index and ends at its last child's index, or at its own index when it has no children |
| `Document.NthIndex` | src/components/page.rs:305-306 | in a well-formed document, looking up position `i` finds the node whose index is `i` |
| `Document.PreOrderIndex` | src/renderer/default_renderer.rs:422-428 | the `k`-th node of the pre-order walk of a subtree has index `root + k` |
| `Document.SubtreesIndexed` | src/renderer/default_renderer.rs:422-428 | every subtree of a pre-order-indexed tree is pre-order-indexed |
| `Document.Containment` | src/components/page.rs:223-229 | every node of a subtree has an index between the root's and the last descendant's; the program's last-child range lies inside that |
| `Document.SubtreeWithin` | src/components/page.rs:223-229 | a subtree of an indexed tree ends no later than the tree itself |
| `Document.NodesIndexed` | src/components/page.rs:210-221 | in a well-formed document, the position of every node in document order equals its index |
| `Search.FindFirst` | src/components/page.rs:257-272 | the result is the first position whose element satisfies the predicate; there is none exactly when no element does |
| `Search.FindLast` | src/components/page.rs:233-249 | the result is the last position whose element satisfies the predicate; there is none exactly when no element does |
| `Styles.Patch` | src/renderer/default_renderer.rs:175 | patching with the default style changes nothing, and patching the default style gives the overlay; a colourless overlay keeps the base colour and a coloured one replaces it; every modifier of either style is on, and no other |
| `Styles.PatchLaws` | src/renderer/default_renderer.rs:175 | patching is associative, and patching again with the same style changes nothing |
| `Words.SplitWhitespace` | src/renderer/default_renderer.rs:279-280 | the pieces are exactly the maximal runs of non-whitespace characters, left to right, as a position-by-position scan finds them; each is non-empty and free of whitespace, and together they are the input with its whitespace removed |
| `Words.PartitionKeepsReal` | src/renderer/default_renderer.rs:217-225 | breaking a batch of real words into lines gives lines of real words only |
| `Words.TokenLength` | src/renderer/default_renderer.rs:279-280 | the length of the leading run of non-whitespace characters |
| `Words.TokensAppend` | src/renderer/default_renderer.rs:225 | the tokens of two joined lines are the tokens of the first followed by those of the second |
| `DefaultRenderer.NonBlankKeepsSeparation` | src/renderer/default_renderer.rs:256-261 | appending only non-empty lines keeps "no two blank lines in a row" |
| `DefaultRenderer.Gap` | src/renderer/default_renderer.rs:98-108 | the gap is a synthetic word with no content and width 0 whose trailing whitespace is exactly `n`, so it takes `n` columns and carries no text |
| `DefaultRenderer.AddWhitespace` | src/renderer/default_renderer.rs:85-96 | afterwards the line ends in a synthetic word; a line that already did is unchanged; otherwise one gap of width 1 is appended; no second gap is ever added |
| `DefaultRenderer.AddModifier` | src/renderer/default_renderer.rs:111-113 | the modifier is present afterwards and the other modifiers are unchanged |
| `DefaultRenderer.RemoveModifier` | src/renderer/default_renderer.rs:116-118 | the modifier is absent afterwards and the other modifiers are unchanged |
| `DefaultRenderer.ClearLine` | src/renderer/default_renderer.rs:123-130 | the current line is empty afterwards; an empty current line changes nothing; the finished text is unchanged and no blank line is added |
| `DefaultRenderer.AddEmptyLine` | src/renderer/default_renderer.rs:135-138 | the current line is finished and one blank line follows it; nothing but the lines changes |
| `DefaultRenderer.EnsureEmptyLine` | src/renderer/default_renderer.rs:257-261 | afterwards the last finished line is blank; a state that already ends so is unchanged; text and earlier lines are kept; no double blank line appears |
| `DefaultRenderer.PushContext` | src/renderer/default_renderer.rs:143-145 | the context is on top of the stack and nothing else changes |
| `DefaultRenderer.PopContext` | src/renderer/default_renderer.rs:157-159 | popping an empty stack changes nothing, and nothing but the stack changes |
| `DefaultRenderer.CurrentStyle` | src/renderer/default_renderer.rs:164-176 | the style carries the active modifiers; red for headers and red links, gray for reference links, no colour otherwise |
| `DefaultRenderer.Decorate` | src/renderer/default_renderer.rs:227-247 | each continuation line starts with a gap of the padding width and, when a prefix is set, the prefix word, followed by the line itself |
| `DefaultRenderer.StartLine` | src/renderer/default_renderer.rs:186-215 | a first word wider than the remaining width finishes the current line; one that fits continues it; on a fresh line with a prefix, the padded prefix word starts the line; the breaker's first-line width is the full width less the padding, and 2 more for a prefix, on a fresh line, and otherwise the remaining width |
| `DefaultRenderer.Breaks` | src/renderer/default_renderer.rs:217-223 | the breaker's lines are non-empty and concatenate to the batch |
| `DefaultRenderer.FillLine` | src/renderer/default_renderer.rs:225 | the prepared line continued with exactly the first broken line, which leaves it non-empty; the finished lines are those of the prepared state |
| `DefaultRenderer.PushLines` | src/renderer/default_renderer.rs:249-253 | the current line is finished, the continuation lines but the last are finished after it, and the last becomes the current line |
| `DefaultRenderer.WrapAppend` | src/renderer/default_renderer.rs:181-254 | an empty batch changes nothing; otherwise only lines are added, every one of them non-empty; a batch of real words leaves the current line ending in a real word and adds no line ending in two gaps |
| `DefaultRenderer.TextWords` | src/renderer/default_renderer.rs:278-295 | one word per whitespace-separated piece, with the node's index and the current style; every word but the last has a trailing gap of 1, and so does the last when the text ends in a space |
| `DefaultRenderer.Retract` | src/renderer/default_renderer.rs:273-276 | text starting with punctuation takes back exactly the last word of the current line when it is a gap; other text, or a line not ending in a gap, changes nothing; the text tokens are unchanged |
| `DefaultRenderer.Enter` | src/renderer/default_renderer.rs:263-346 | headers, reference links and links push a context; each kind adds its modifiers (bold for headers, underlined for internal links, italic and underlined for other links, italic for reference links and notices); a disambiguation notice sets padding 1 and prefix `|`, every other kind keeps both; list items and description terms finish the line; kinds other than text add no content |
| `DefaultRenderer.EnterStyle` | src/renderer/default_renderer.rs:263-346 | entering a node that is neither text nor a list part changes only the modifiers, contexts, padding and prefix: the kind's context is pushed, its modifiers added, and a disambiguation notice sets padding 1 and prefix `|` |
| `DefaultRenderer.PreChildren` | src/renderer/default_renderer.rs:263-351 | as `Enter`, with the same modifiers, padding and prefix, and a block ends on a blank line without creating a double blank |
| `DefaultRenderer.Leave` | src/renderer/default_renderer.rs:353-415 | the contexts pushed on entry are popped and the kind's modifiers removed; leaving a disambiguation notice lowers the padding by 1, stopping at 0, and clears the prefix, every other kind keeps both; list items and description parts finish the line, spans, reference links and links add a gap as `add_whitespace` does, and every other kind leaves the lines alone |
| `DefaultRenderer.LeaveStyle` | src/renderer/default_renderer.rs:353-415 | leaving a node, apart from the line, changes only the modifiers, contexts, padding and prefix: the kind's context is popped and its modifiers removed, and a disambiguation notice lowers the padding by 1, stopping at 0, and clears the prefix |
| `DefaultRenderer.PostChildren` | src/renderer/default_renderer.rs:353-420 | as `Leave`, with the same modifiers, padding, prefix and line effects for kinds that are not blocks, and a block ends on a blank line without creating a double blank |
| `DefaultRenderer.RenderNode` | src/renderer/default_renderer.rs:422-428 | rendering a subtree leaves the context stack and width as they were, only appends lines, ends a block on a blank line, never creates a double blank line and never leaves a line ending in two gaps |
| `DefaultRenderer.RenderChildren` | src/renderer/default_renderer.rs:424-426 | rendering the children in order keeps contexts and width, only appends lines, never creates a double blank line and never leaves a line ending in two gaps |
| `DefaultRenderer.RenderDocument` | src/renderer/default_renderer.rs:36-58 | an empty document renders to no lines; a block root ends on a blank line; the output never has two blank lines in a row, and no line ends in two gaps |
| `RendererProperties.TextTokensAppend` | src/renderer/default_renderer.rs:422-428 | the text of two node sequences in a row is the text of the first followed by that of the second |
| `RendererProperties.PushThenPop` | src/renderer/default_renderer.rs:143-159 | a pushed context is the current one, and popping it restores the state |
| `RendererProperties.AddWhitespaceIdempotent` | src/renderer/default_renderer.rs:85-96 | adding whitespace twice is the same as once |
| `RendererProperties.BlankLinesIdempotent` | src/renderer/default_renderer.rs:123-130 | clearing the line twice, or ensuring an empty line twice, is the same as once |
| `RendererProperties.AddWhitespaceTokens` | src/renderer/default_renderer.rs:85-96 | whitespace adds no text |
| `RendererProperties.DecorateTokens` | src/renderer/default_renderer.rs:227-247 | indenting and prefixing continuation lines adds no text |
| `RendererProperties.TextWordsTokens` | src/renderer/default_renderer.rs:278-295 | the words of a text node carry exactly its whitespace-separated pieces, in order, with its index |
| `RendererProperties.StartLineTokens` | src/renderer/default_renderer.rs:186-215 | finishing the line and adding the padded prefix add no text |
| `RendererProperties.BreaksTokens` | src/renderer/default_renderer.rs:217-225 | the first broken line and the rest together carry exactly the batch's text |
| `RendererProperties.PushLinesContent` | src/renderer/default_renderer.rs:249-253 | pushing the continuation lines adds exactly their text, after the existing text |
| `RendererProperties.WrapAppendTokens` | src/renderer/default_renderer.rs:181-254 | wrapping a batch appends exactly the batch's text after the existing text: nothing lost, duplicated or reordered |
| `RendererProperties.WrapAppendLayout` | src/renderer/default_renderer.rs:193-253 | a first word that does not fit finishes the old line unchanged; one that fits continues it; a fresh line with a prefix starts with the padded prefix; every continuation line is indented and prefixed |
| `RendererProperties.PreChildrenTokens` | src/renderer/default_renderer.rs:263-351 | entering a node adds exactly its own text (nothing unless it is a text node) |
| `RendererProperties.PostChildrenTokens` | src/renderer/default_renderer.rs:353-420 | leaving a node adds no text |
| `RendererProperties.EnterLeaveRestores` | src/renderer/default_renderer.rs:263-415 | entering and then leaving a node restores the modifiers, padding and prefix when none of the kind's modifiers was active and no notice was open |
| `RendererProperties.RenderNodeTokens` | src/renderer/default_renderer.rs:422-428 | rendering a subtree appends exactly the text of its text nodes, in pre-order |
| `RendererProperties.RenderChildrenTokens` | src/renderer/default_renderer.rs:424-426 | rendering children from the `i`-th on appends exactly the text of their subtrees, in order |
| `RendererProperties.RenderDocumentTokens` | src/renderer/default_renderer.rs:36-58 | the finished lines carry a prefix of the document's text in document order, and all of it when the root is a block |
| `Page.Next` | src/components/page.rs:49-63 | the next renderer is a different one, one step further in declaration order, wrapping after the last |
| `Page.NewPage` | src/components/page.rs:84-99 | a new page holds the given document with the default renderer, an empty cache and selection and a zero viewport, shows the page, points the cursor at the first section and keeps the section count modulo 256 |
| `PageProperties.NewPageRendersContent` | src/components/page.rs:84-111 | a new page has a coherent cache, is at the top, is not moved by scrolling to the bottom before any render, and its first render draws the given document with the default renderer |
| `Page.RenderPage` | src/components/page.rs:101-111 | the default renderer draws the document at the width, an empty document as no lines; every other renderer is the debug render of the document |
| `Page.FlushCache` | src/components/page.rs:155-161 | the cache is empty and the selection is reset; nothing else changes |
| `Page.SwitchRenderer` | src/components/page.rs:150-153 | the new renderer is set and the cache is empty |
| `Page.Resize` | src/components/page.rs:315-320 | the viewport takes the new size and the cache is empty |
| `Page.Render` | src/components/page.rs:525-533 | the viewport takes the area's size; the cache gains exactly the area's width; cached entries never change; a new width holds a fresh render |
| `Page.CursorDown` | src/components/page.rs:164-178 | the cursor moves to the next section and wraps to the first after the last; it lands on a section whenever there is one |
| `Page.CursorUp` | src/components/page.rs:191-205 | the cursor moves to the previous section and wraps from the first to the last; a cursor on a section stays on one |
| `Page.ScrollDown` | src/components/page.rs:163-188 | the page moves down by the amount, but never past the last full screen of the cached render |
| `Page.ScrollUp` | src/components/page.rs:190-208 | the page moves up by the amount, stopping at the top |
| `Page.SelectFirst` | src/components/page.rs:210-231 | when a link exists, the first link in document order is selected, with the extent's range: up to its last child as written, or its whole subtree; no link, no change; only the selection changes |
| `Page.SelectPrev` | src/components/page.rs:233-255 | when a link starts before the selection start, the last such link in document order is selected, with the extent's range; none, no change; only the selection changes |
| `Page.SelectNext` | src/components/page.rs:257-278 | when a link starts after the selection end, the first such link in document order is selected, with the extent's range; none, no change; only the selection changes |
| `Page.SelectLast` | src/components/page.rs:280-302 | when a link starts after the selection end, the last such link in document order is selected, with the extent's range; none, no change; only the selection changes |
| `Page.OpenLink` | src/components/page.rs:304-313 | the node at the selection start is opened: an internal link loads its page, anything else is consumed |
| `Page.LastHeader` | src/components/page.rs:330-343 | the last header in document order with the anchor as its id; none exactly when there is no such header |
| `Page.FirstLineShowing` | src/components/page.rs:357-371 | the first rendered line with a word whose node lies in the range; none exactly when no line has one |
| `Page.SelectHeader` | src/components/page.rs:322-374 | the top anchor scrolls to line 0; otherwise the view scrolls to the first line of a fresh render showing a word in the last matching header's range under the extent, and changes nothing when there is no such header or line; only the vertical offset changes |
| `Page.Update` | src/components/page.rs:451-484 | every action but `Other` is consumed and the document never changes; each action runs its operation: scrolling by the amount or by half the viewport height, to the top, or to the bottom by the cached line count (which on the page lands on the last full screen, and without a cached render changes nothing), resizing, toggling the contents, switching renderer, and selecting links and jumping to headers with the program's last-child range; a changed renderer comes with an empty cache |
| `PageProperties.NextCycles` | src/components/page.rs:49-63 | four steps of `next` return to the start, and two steps never do |
| `PageProperties.CursorRoundTrip` | src/components/page.rs:163-205 | on a valid section, moving the cursor down then up, or up then down, returns it |
| `PageProperties.ScrollRoundTrip` | src/components/page.rs:163-208 | scrolling down by an amount that fits and back up restores the page |
| `PageProperties.ScrollToBottomIdempotent` | src/components/page.rs:474-478 | scrolling to the bottom twice is the same as once |
| `PageProperties.ToggleTwice` | src/components/page.rs:455 | toggling the contents list twice restores the page |
| `PageProperties.SelectNextAdvances` | src/components/page.rs:257-278 | the next link starts past the old selection, at the smallest such link index, and its range is ordered |
| `PageProperties.SelectPrevRetreats` | src/components/page.rs:233-255 | the previous link starts before the old selection, at the largest such link index |
| `PageProperties.NextAfterLastUnchanged` | src/components/page.rs:257-302 | after selecting the last link, selecting the next one changes nothing: no wrap-around, under either extent |
| `PageProperties.PrevAfterFirstUnchanged` | src/components/page.rs:210-255 | after selecting the first link, selecting the previous one changes nothing: no wrap-around, under either extent |
| `PageProperties.OpenSelectedLink` | src/components/page.rs:304-313 | opening a selected node opens that very node |
| `PageProperties.HighlightedIff` | src/components/page.rs:553-557 | a word is underlined exactly when its node index exists and lies in the selection |
| `PageProperties.HighlightIffInSubtree` | src/components/page.rs:553-557 | with a link selected, a word is underlined exactly when it comes from a node of the link's subtree |
| `PageProperties.LastChildRangeMissesNestedText` | src/components/page.rs:223-229 | for a link whose text is in bold, the last-child range leaves the text un-underlined and the subtree range underlines it |
| `PageProperties.ExtentChangesNavigation` | src/components/page.rs:210-278 | for a link whose bold child holds a nested link, the program's range selects the outer link up to the bold node and the next link is the nested one; the subtree range covers both links, so no next link is found |
| `PageProperties.HeaderJumpMissesNestedText` | src/components/page.rs:350-371 | for a header whose text sits inside a span, the program's range finds no line and the view stays put; the subtree range scrolls to the text's line |
| `PageProperties.RenderIdempotent` | src/components/page.rs:525-533 | a second render at the same size changes nothing and returns the same lines |
| `PageProperties.RenderTransparent` | src/components/page.rs:525-533 | with a coherent cache, a render returns exactly the current renderer's output and keeps the cache coherent |
| `PageProperties.UpdateKeepsCacheCoherent` | src/components/page.rs:150-161 | no action leaves a cached render that the current renderer would not draw |

## Left out

- Drawing with ratatui. The title line, the scrollbar, the status line and the
  contents list widget are not modelled. Only the cache lookup and the
  underline test of `render` are, and they concern the screen only.
- Key handling and the key map (`handle_key_events`, `keymap`). They only
  translate key presses into the actions that `Update` and `OpenLink` model.
- `selected_header` and its assertion. It only reads the section list for the
  key handler.
- The debug renderers. They are opaque functions in `Env`, since their code is
  not part of this model. A release build, where `next` always returns
  `Default`, is not modelled.
- `wrap_optimal_fit` is not modelled. The model assumes only that its output
  is a partition of the batch into non-empty lines.
  - Its optimality is left out.
  - So is its respect of the two line widths.
  - No property here bounds a line's width, because the breaker is the only
    thing that would guarantee one.
- Word widths and gaps are `f64` in the program and natural numbers here. All
  of them are whole character counts.
- `penalty_width` is always zero and is left out of `Word`.
- `tracing` log messages are left out.
- `Word::node` is not part of this model. `WordNode` looks up the word's index
  among the document's nodes and treats synthetic words as having no node.
- `Page.ScrollDown`: requires that `bottom + amount` and `y + amount` fit in a
  `u16`. The program would panic otherwise in a debug build and wrap in a
  release build.
- `Page.CursorDown`: requires a section count above zero when a section is
  selected. The same goes for `Page.CursorUp` on the first section, where
  `max_idx_section - 1` would underflow.
- `Page.Update`: excludes `SelectTopLink` and `SelectBottomLink`, which are
  `todo!()`.
- `Page.SelectHeader`: requires a non-empty document unless the anchor is
  `Content_Top`, since the program unwraps the first node.
- `Page.OpenLink`: requires the selection start to name an existing node, since
  the program unwraps that lookup.
- `PageProperties.ScrollToBottomIdempotent`: requires twice the line count plus
  the height to fit in a `u16`. Otherwise the second scroll's `bottom + amount`
  would overflow.

## Findings

| source | as written | input that shows it | evidently intended | confidence | as-written member | corrected member |
|---|---|---|---|---|---|---|
| src/components/page.rs:224-228 | a selected link covers the indices from the link to its last child (the same code at lines 248-252, 271-275 and 294-298 for the other links and 350-355 for a header) | a link (node 0) whose only child is a bold node (1) holding the text "bar" (2): the range is 0..=1, so the word "bar" from node 2 is not underlined when the link is selected; a link nested in the bold node becomes a separate next link; a header whose text sits in a span is never jumped to | the range covers the link's whole subtree, so every word of the link's text is underlined | medium, not executed | `Page.SelectFirst`, `Page.SelectNext` and `Page.SelectHeader` with extent `ToLastChild` (`Document.ChildRange`), as `Page.Update` uses them; exhibited by `PageProperties.LastChildRangeMissesNestedText`, `PageProperties.ExtentChangesNavigation` and `PageProperties.HeaderJumpMissesNestedText` | the same members with extent `ToLastDescendant` (`Document.SubtreeRange`), with `PageProperties.HighlightIffInSubtree` proved |

=== FILE: basics.dfy ===
/**
 * Small shared vocabulary: an optional value and the machine-integer ranges
 * the program stores its counters in.
 */
module Basics {

  /** A value that may be absent (Rust's `Option`). */
  datatype Option<+T> = None | Some(value: T)

  /** An unsigned 8-bit value (`u8`). */
  type U8 = x: int | 0 <= x < 0x100

  /** An unsigned 16-bit value (`u16`): terminal widths, heights and offsets. */
  type U16 = x: int | 0 <= x < 0x1_0000

  /** `a.saturating_sub(b)` on unsigned integers: never below zero. */
  function SaturatingSub(a: nat, b: nat): (r: nat)
    ensures r <= a
    ensures a >= b ==> r + b == a
    ensures a < b ==> r == 0
  {
    if a >= b then a - b else 0
  }

  /** `a.saturating_add(b)` on `u16`: never above the largest `u16`. */
  function SaturatingAddU16(a: U16, b: U16): (r: U16)
    ensures a + b < 0x1_0000 ==> r == a + b
    ensures a + b >= 0x1_0000 ==> r == 0xFFFF
  {
    if a + b < 0x1_0000 then a + b else 0xFFFF
  }

  /** `n as u16`: keeps the low 16 bits. */
  function TruncateU16(n: nat): (r: U16)
    ensures n < 0x1_0000 ==> r == n
    ensures (n - r) % 0x1_0000 == 0
  {
    n % 0x1_0000
  }
}

=== FILE: document.dfy ===
/**
 * The document tree that the renderer walks and the page navigates.
 * Every node carries an origin index, a kind and its ordered children;
 * indices are handed out in pre-order, so a node's subtree occupies a
 * contiguous range of indices starting at the node itself.
 */
module Document {
  import opened Basics

  /** Where a link points. */
  datatype LinkTarget =
    | Internal(page: string)
    | Red(title: string)
    | Media(href: string, title: string)
    | External(href: string, title: string)

  /** The semantic kind of a node. */
  datatype Kind =
    | Section(id: string)
    | Header(id: string, level: nat)
    | Text(contents: string)
    | Division
    | Paragraph
    | Span
    | Reflink
    | Hatnote
    | RedirectMessage
    | Disambiguation
    | OrderedList
    | UnorderedList
    | ListItem
    | DescriptionList
    | DescriptionListTerm
    | DescriptionListDescription
    | Bold
    | Italic
    | Link(target: LinkTarget)
    | Unknown

  datatype Node = Node(index: nat, kind: Kind, children: seq<Node>)

  /** A document: no nodes at all, or a tree rooted at node 0. */
  datatype Doc = Doc(root: Option<Node>)

  /** Pre-order flattening of the subtree rooted at `n`, starting with `n`. */
  function Descendants(n: Node): (r: seq<Node>)
    ensures |r| > 0 && r[0] == n
    decreases n
  {
    [n] + Forest(n.children)
  }

  /** Pre-order flattening of a sequence of sibling subtrees. */
  function Forest(cs: seq<Node>): seq<Node>
    decreases cs
  {
    if |cs| == 0 then [] else Descendants(cs[0]) + Forest(cs[1..])
  }

  /**
   * Indices are assigned in pre-order: the first child follows its parent,
   * and each later sibling follows the whole subtree of the one before it.
   */
  predicate Indexed(n: Node)
    decreases n
  {
    ForestIndexed(n.children, n.index + 1)
  }

  predicate ForestIndexed(cs: seq<Node>, start: nat)
    decreases cs
  {
    |cs| == 0 ||
    (cs[0].index == start && Indexed(cs[0]) &&
     ForestIndexed(cs[1..], start + |Descendants(cs[0])|))
  }

  /** A document whose root is node 0 and whose indices follow pre-order. */
  predicate WellFormed(d: Doc) {
    d.root.Some? ==> d.root.value.index == 0 && Indexed(d.root.value)
  }

  /** All nodes of the document in document order. */
  function Nodes(d: Doc): seq<Node> {
    if d.root.None? then [] else Descendants(d.root.value)
  }

  /**
   * The node at position `i` of the document order (`Node::new`), if there
   * is one; in a well-formed document it is the node whose index is `i`.
   */
  function Nth(d: Doc, i: nat): (r: Option<Node>)
    ensures r.Some? <==> i < |Nodes(d)|
    ensures r.Some? ==> r.value in Nodes(d)
  {
    if i < |Nodes(d)| then Some(Nodes(d)[i]) else None
  }

  /** In a well-formed document, `Nth` finds exactly the node with the requested index. */
  lemma NthIndex(d: Doc, i: nat)
    requires WellFormed(d)
    ensures Nth(d, i).Some? ==> Nth(d, i).value.index == i
  {
    NodesIndexed(d);
  }

  predicate IsLink(n: Node) {
    n.kind.Link?
  }

  /**
   * The pair `(node.index, last_child.index)`, or `(node.index, node.index)`
   * for a childless node, used as a selection and as a header's extent.
   */
  function ChildRange(n: Node): (r: (nat, nat))
    ensures r.0 == n.index
    ensures |n.children| == 0 ==> r.1 == n.index
    ensures |n.children| > 0 ==> r.1 == n.children[|n.children| - 1].index
  {
    if |n.children| == 0 then (n.index, n.index)
    else (n.index, n.children[|n.children| - 1].index)
  }

  /** Index of the last node of `n`'s subtree in pre-order. */
  function LastDescendantIndex(n: Node): nat {
    n.index + |Descendants(n)| - 1
  }

  /**
   * The index range of `n`'s whole subtree, from `n` itself to its last
   * descendant: the extent a selection of `n` is meant to cover.
   */
  function SubtreeRange(n: Node): (nat, nat) {
    (n.index, LastDescendantIndex(n))
  }

  // ---------------------------------------------------------------------
  // Pre-order indexing

  /** The k-th node of the pre-order flattening has index `n.index + k`. */
  lemma {:induction false} PreOrderIndex(n: Node)
    requires Indexed(n)
    ensures forall k | 0 <= k < |Descendants(n)| :: Descendants(n)[k].index == n.index + k
    decreases n
  {
    ForestPreOrderIndex(n.children, n.index + 1);
  }

  lemma {:induction false} ForestPreOrderIndex(cs: seq<Node>, start: nat)
    requires ForestIndexed(cs, start)
    ensures forall k | 0 <= k < |Forest(cs)| :: Forest(cs)[k].index == start + k
    decreases cs
  {
    if |cs| > 0 {
      PreOrderIndex(cs[0]);
      ForestPreOrderIndex(cs[1..], start + |Descendants(cs[0])|);
    }
  }

  /** Every subtree of an indexed tree is indexed. */
  lemma {:induction false} SubtreesIndexed(n: Node)
    requires Indexed(n)
    ensures forall m | m in Descendants(n) :: Indexed(m)
    decreases n
  {
    ForestSubtreesIndexed(n.children, n.index + 1);
  }

  lemma {:induction false} ForestSubtreesIndexed(cs: seq<Node>, start: nat)
    requires ForestIndexed(cs, start)
    ensures forall m | m in Forest(cs) :: Indexed(m)
    decreases cs
  {
    if |cs| > 0 {
      SubtreesIndexed(cs[0]);
      ForestSubtreesIndexed(cs[1..], start + |Descendants(cs[0])|);
    }
  }

  /** Every child appears in the flattening of its siblings' forest. */
  lemma {:induction false} ChildInForest(cs: seq<Node>, i: nat)
    requires i < |cs|
    ensures cs[i] in Forest(cs)
    decreases cs
  {
    if i > 0 {
      ChildInForest(cs[1..], i - 1);
    }
  }

  /**
   * Containment: every node of `n`'s subtree has an index between `n.index`
   * and the index of `n`'s last descendant, and the last child's index lies
   * in that range too.
   */
  lemma Containment(n: Node)
    requires Indexed(n)
    ensures forall m | m in Descendants(n) :: n.index <= m.index <= LastDescendantIndex(n)
    ensures n.index <= ChildRange(n).0 <= ChildRange(n).1 <= LastDescendantIndex(n)
    ensures SubtreeRange(n).0 == n.index <= SubtreeRange(n).1
    ensures |n.children| > 0 ==> ChildRange(n).0 < ChildRange(n).1
  {
    var ds := Descendants(n);
    PreOrderIndex(n);
    forall m | m in ds
      ensures n.index <= m.index <= LastDescendantIndex(n)
    {
      var k :| 0 <= k < |ds| && ds[k] == m;
      assert m.index == n.index + k;
    }
    if |n.children| > 0 {
      LastChildInSubtree(n);
    }
  }

  /** The last child of a node is one of its proper descendants. */
  lemma LastChildInSubtree(n: Node)
    requires |n.children| > 0
    ensures n.children[|n.children| - 1] in Descendants(n)[1..]
  {
    ChildInForest(n.children, |n.children| - 1);
    assert Descendants(n)[1..] == Forest(n.children);
  }

  /** Every subtree of an indexed tree ends no later than the tree itself. */
  lemma {:induction false} SubtreeWithin(n: Node)
    requires Indexed(n)
    ensures forall m | m in Descendants(n) :: m.index + |Descendants(m)| <= n.index + |Descendants(n)|
    decreases n
  {
    ForestWithin(n.children, n.index + 1);
  }

  lemma {:induction false} ForestWithin(cs: seq<Node>, start: nat)
    requires ForestIndexed(cs, start)
    ensures forall m | m in Forest(cs) :: m.index + |Descendants(m)| <= start + |Forest(cs)|
    decreases cs
  {
    if |cs| > 0 {
      SubtreeWithin(cs[0]);
      ForestWithin(cs[1..], start + |Descendants(cs[0])|);
    }
  }

  /** In a well-formed document the node at position `i` has index `i`. */
  lemma NodesIndexed(d: Doc)
    requires WellFormed(d)
    ensures forall i | 0 <= i < |Nodes(d)| :: Nodes(d)[i].index == i
    ensures forall m | m in Nodes(d) :: Indexed(m)
  {
    if d.root.Some? {
      PreOrderIndex(d.root.value);
      SubtreesIndexed(d.root.value);
    }
  }
}

=== FILE: page.dfy ===
/**
 * The actions the page component reacts to and the outcome it reports.
 */
module Actions {
  import opened Basics

  /** The renderers of a debug build, in declaration order. */
  datatype Renderer = Default | TestTreeData | TestTreeRaw | TestNodeRaw

  datatype PageAction =
    | SwitchRenderer(renderer: Renderer)
    | ToggleContents
    | SelectFirstLink
    | SelectLastLink
    | SelectTopLink
    | SelectBottomLink
    | SelectPrevLink
    | SelectNextLink
    | GoToHeader(anchor: string)

  datatype Action =
    | Page(action: PageAction)
    | ScrollUp(amount: U16)
    | ScrollDown(amount: U16)
    | ScrollHalfUp
    | ScrollHalfDown
    | ScrollToTop
    | ScrollToBottom
    | Resize(width: U16, height: U16)
    | Other

  /** What handling an event reports back: ignored, consumed, or a page to load. */
  datatype Outcome = Ignored | Consumed | LoadPage(page: string)
}

/**
 * The page component: which renderer draws the document, a cache of renders
 * keyed by width, the viewport scrolled over the rendered lines, the selected
 * link as a range of node indices, and the table-of-contents cursor.
 */
module Page {
  import opened Basics
  import opened Words
  import opened Search
  import opened Actions
  import Document
  import DefaultRenderer

  // ---------------------------------------------------------------------
  // Renderer choice

  /** The `u8` discriminant of a renderer (`#[repr(u8)]`). */
  function Discriminant(r: Renderer): nat {
    match r
    case Default => 0
    case TestTreeData => 1
    case TestTreeRaw => 2
    case TestNodeRaw => 3
  }

  /** `Renderer::next`: steps through the renderers in declaration order, wrapping. */
  function Next(r: Renderer): (n: Renderer)
    ensures n != r
    ensures Discriminant(n) == (Discriminant(r) + 1) % 4
  {
    match r
    case Default => TestTreeData
    case TestTreeData => TestTreeRaw
    case TestTreeRaw => TestNodeRaw
    case TestNodeRaw => Default
  }

  // ---------------------------------------------------------------------
  // State

  /** The viewport rectangle; `y` is the first rendered line shown. */
  datatype Viewport = Viewport(x: U16, y: U16, width: U16, height: U16)

  /** `Rect::bottom`: `y + height`, saturating. */
  function Bottom(v: Viewport): U16 {
    SaturatingAddU16(v.y, v.height)
  }

  /** The table-of-contents cursor and the number of sections (`u8`). */
  datatype ContentsState = ContentsState(selected: Option<nat>, maxIdx: U8)

  datatype PageState = PageState(
    content: Document.Doc,
    renderer: Renderer,
    cache: map<U16, seq<Line>>,
    viewport: Viewport,
    selected: (nat, nat),
    isContents: bool,
    contents: ContentsState)

  /**
   * What the page needs from outside: the line breaker of the default
   * renderer and the debug renderers, which are not part of this model.
   */
  datatype Env = Env(fit: Fitter, testRender: (Renderer, Document.Doc) -> seq<Line>)

  /**
   * `PageComponent::new`: default renderer, empty cache, zero viewport, the
   * contents cursor on the first entry, and the section count kept as a `u8`.
   */
  function NewPage(content: Document.Doc, sections: Option<nat>): (p: PageState)
    ensures p.content == content
    ensures p.cache == map[] && p.selected == (0, 0) && !p.isContents
    ensures p.renderer == Default && p.viewport == Viewport(0, 0, 0, 0)
    ensures p.contents.selected == Some(0)
    ensures sections.None? ==> p.contents.maxIdx == 0
    ensures sections.Some? && sections.value < 0x100 ==> p.contents.maxIdx == sections.value
    ensures sections.Some? ==> (sections.value - p.contents.maxIdx) % 0x100 == 0
  {
    PageState(content, Default, map[], Viewport(0, 0, 0, 0), (0, 0), false,
              ContentsState(Some(0), if sections.None? then 0 else sections.value % 0x100))
  }

  /** `render_page`: the lines of the chosen renderer at the given width. */
  function RenderPage(p: PageState, width: U16, env: Env): (r: seq<Line>)
    ensures p.renderer == Default ==> r == DefaultRenderer.RenderDocument(p.content, width, env.fit)
    ensures p.renderer != Default ==> r == env.testRender(p.renderer, p.content)
    ensures p.renderer == Default && p.content.root.None? ==> r == []
  {
    if p.renderer == Default then DefaultRenderer.RenderDocument(p.content, width, env.fit)
    else env.testRender(p.renderer, p.content)
  }

  /** Every cached render is what the current renderer draws at that width. */
  ghost predicate CacheCoherent(p: PageState, env: Env) {
    forall w | w in p.cache :: p.cache[w] == RenderPage(p, w, env)
  }

  // ---------------------------------------------------------------------
  // Cache and resizing

  /** `flush_cache`: forget every cached render and reset the link selection. */
  function FlushCache(p: PageState): (r: PageState)
    ensures r.cache == map[] && r.selected == (0, 0)
    ensures r == p.(cache := r.cache, selected := r.selected)
  {
    p.(cache := map[], selected := (0, 0))
  }

  /** `switch_renderer`: a new renderer invalidates every cached render. */
  function SwitchRenderer(p: PageState, renderer: Renderer): (r: PageState)
    ensures r.renderer == renderer && r.cache == map[] && r.selected == (0, 0)
    ensures r == p.(renderer := renderer, cache := r.cache, selected := r.selected)
  {
    FlushCache(p.(renderer := renderer))
  }

  /** `resize`: a new viewport size, then a flush. */
  function Resize(p: PageState, width: U16, height: U16): (r: PageState)
    ensures r.viewport == p.viewport.(width := width, height := height)
    ensures r.cache == map[] && r.selected == (0, 0)
    ensures r == p.(viewport := r.viewport, cache := r.cache, selected := r.selected)
  {
    FlushCache(p.(viewport := p.viewport.(width := width, height := height)))
  }

  /**
   * The cache lookup of `render`: the viewport takes the drawing area's size,
   * and the lines at that width come from the cache, rendering and inserting
   * them first when the width has not been seen.
   */
  function Render(p: PageState, width: U16, height: U16, env: Env): (r: (PageState, seq<Line>))
    ensures r.0 == p.(viewport := r.0.viewport, cache := r.0.cache)
    ensures r.0.viewport == p.viewport.(width := width, height := height)
    ensures r.0.cache.Keys == p.cache.Keys + {width}
    ensures width in r.0.cache && r.1 == r.0.cache[width]
    ensures forall w | w in p.cache :: r.0.cache[w] == p.cache[w]
    ensures width !in p.cache ==> r.1 == RenderPage(p, width, env)
  {
    var q := p.(viewport := p.viewport.(width := width, height := height));
    if width in q.cache then (q, q.cache[width])
    else
      var lines := RenderPage(q, width, env);
      (q.(cache := q.cache[width := lines]), lines)
  }

  // ---------------------------------------------------------------------
  // Scrolling

  /** The contents cursor can move down without `max_idx_section - 1` underflowing. */
  predicate CursorDownDefined(c: ContentsState) {
    c.selected.Some? ==> c.maxIdx > 0
  }

  /** The contents cursor can move up without `max_idx_section - 1` underflowing. */
  predicate CursorUpDefined(c: ContentsState) {
    c.selected == Some(0) ==> c.maxIdx > 0
  }

  /** The contents cursor of `scroll_down`: the next entry, wrapping to the first. */
  function CursorDown(c: ContentsState): (r: ContentsState)
    requires CursorDownDefined(c)
    ensures r.maxIdx == c.maxIdx && r.selected.Some?
    ensures c.selected.None? ==> r.selected == Some(0)
    ensures c.selected.Some? ==> r.selected.value < c.maxIdx
    ensures c.maxIdx > 0 ==> r.selected.value < c.maxIdx
    ensures c.selected.Some? && c.selected.value + 1 < c.maxIdx ==>
              r.selected.value == c.selected.value + 1
    ensures c.selected.Some? && c.selected.value + 1 >= c.maxIdx ==> r.selected == Some(0)
  {
    match c.selected
    case None => c.(selected := Some(0))
    case Some(i) => c.(selected := Some(if i >= c.maxIdx - 1 then 0 else i + 1))
  }

  /** The contents cursor of `scroll_up`: the previous entry, wrapping to the last. */
  function CursorUp(c: ContentsState): (r: ContentsState)
    requires CursorUpDefined(c)
    ensures r.maxIdx == c.maxIdx && r.selected.Some?
    ensures c.selected.None? ==> r.selected == Some(0)
    ensures c.selected == Some(0) ==> r.selected.value + 1 == c.maxIdx
    ensures c.selected.Some? && c.selected.value > 0 ==>
              r.selected.value + 1 == c.selected.value
    ensures c.maxIdx > 0 && (c.selected.Some? ==> c.selected.value < c.maxIdx) ==>
              r.selected.value < c.maxIdx
  {
    match c.selected
    case None => c.(selected := Some(0))
    case Some(i) => c.(selected := Some(if i == 0 then c.maxIdx - 1 else i - 1))
  }

  /** The number of rendered lines, as `len() as u16`. */
  function LineCount(lines: seq<Line>): U16 {
    TruncateU16(|lines|)
  }

  /** The greatest `y` that still fills the viewport with the cached lines. */
  function Ceiling(p: PageState): nat
    requires p.viewport.width in p.cache
  {
    SaturatingSub(LineCount(p.cache[p.viewport.width]), p.viewport.height)
  }

  /** `scroll_down` neither underflows the section count nor overflows a `u16`. */
  predicate ScrollDownDefined(p: PageState, amount: U16) {
    if p.isContents then CursorDownDefined(p.contents)
    else if p.viewport.width in p.cache then Bottom(p.viewport) + amount < 0x1_0000
    else p.viewport.y + amount < 0x1_0000
  }

  /**
   * `scroll_down`: in the contents list, the cursor moves down; on the page,
   * the viewport moves down by `amount`, but never past the last full screen
   * of the cached render at the current width.
   */
  function ScrollDown(p: PageState, amount: U16): (r: PageState)
    requires ScrollDownDefined(p, amount)
    ensures p.isContents ==> r == p.(contents := CursorDown(p.contents))
    ensures !p.isContents ==> r == p.(viewport := p.viewport.(y := r.viewport.y))
    ensures !p.isContents && p.viewport.width in p.cache ==> r.viewport.y <= Ceiling(p)
    ensures !p.isContents && p.viewport.width in p.cache &&
            Bottom(p.viewport) + amount >= LineCount(p.cache[p.viewport.width]) ==>
              r.viewport.y == Ceiling(p)
    ensures !p.isContents && (p.viewport.width !in p.cache ||
              Bottom(p.viewport) + amount < LineCount(p.cache[p.viewport.width])) ==>
              r.viewport.y == p.viewport.y + amount
  {
    if p.isContents then p.(contents := CursorDown(p.contents))
    else if p.viewport.width in p.cache &&
            Bottom(p.viewport) + amount >= LineCount(p.cache[p.viewport.width]) then
      p.(viewport := p.viewport.(y := Ceiling(p)))
    else
      p.(viewport := p.viewport.(y := p.viewport.y + amount))
  }

  /** `scroll_up` does not underflow the section count. */
  predicate ScrollUpDefined(p: PageState) {
    p.isContents ==> CursorUpDefined(p.contents)
  }

  /**
   * `scroll_up`: in the contents list, the cursor moves up; on the page,
   * the viewport moves up by `amount`, stopping at the top.
   */
  function ScrollUp(p: PageState, amount: U16): (r: PageState)
    requires ScrollUpDefined(p)
    ensures p.isContents ==> r == p.(contents := CursorUp(p.contents))
    ensures !p.isContents ==> r == p.(viewport := p.viewport.(y := r.viewport.y))
    ensures !p.isContents ==> r.viewport.y <= p.viewport.y
    ensures !p.isContents && amount <= p.viewport.y ==> r.viewport.y + amount == p.viewport.y
    ensures !p.isContents && amount > p.viewport.y ==> r.viewport.y == 0
  {
    if p.isContents then p.(contents := CursorUp(p.contents))
    else p.(viewport := p.viewport.(y := SaturatingSub(p.viewport.y, amount)))
  }

  // ---------------------------------------------------------------------
  // Link selection

  /** A link node whose index is above `bound`. */
  predicate LinkAfter(bound: nat, n: Document.Node) {
    Document.IsLink(n) && bound < n.index
  }

  /** A link node whose index is below `bound`. */
  predicate LinkBefore(bound: nat, n: Document.Node) {
    Document.IsLink(n) && n.index < bound
  }

  /**
   * How far the selection of a node reaches. The program stops at the
   * node's last child (`ToLastChild`), which leaves out that child's own
   * descendants; `ToLastDescendant` covers the whole subtree, as intended
   * (see the findings in the README).
   */
  datatype Extent = ToLastChild | ToLastDescendant

  /** The index range a selection of `n` covers under the given extent. */
  function SelectionRange(e: Extent, n: Document.Node): (nat, nat) {
    match e
    case ToLastChild => Document.ChildRange(n)
    case ToLastDescendant => Document.SubtreeRange(n)
  }

  /** Selects the node found, if any, with the given extent. */
  function SelectNode(p: PageState, found: Option<nat>, e: Extent): (r: PageState)
    requires found.Some? ==> found.value < |Document.Nodes(p.content)|
  {
    match found
    case None => p
    case Some(k) => p.(selected := SelectionRange(e, Document.Nodes(p.content)[k]))
  }

  /** `select_first`: the first link of the document, if any. */
  function SelectFirst(p: PageState, e: Extent): (r: PageState)
    ensures r == p.(selected := r.selected)
    ensures (forall j | 0 <= j < |Document.Nodes(p.content)| ::
               !Document.IsLink(Document.Nodes(p.content)[j])) ==> r == p
    ensures (exists j | 0 <= j < |Document.Nodes(p.content)| :: Document.IsLink(Document.Nodes(p.content)[j])) ==>
            exists k | 0 <= k < |Document.Nodes(p.content)| ::
              Document.IsLink(Document.Nodes(p.content)[k]) &&
              (forall j | 0 <= j < k :: !Document.IsLink(Document.Nodes(p.content)[j])) &&
              r.selected == SelectionRange(e, Document.Nodes(p.content)[k])
  {
    SelectNode(p, FindFirst(Document.Nodes(p.content), Document.IsLink), e)
  }

  /** `select_prev`: the last link, in document order, whose index is below the selection. */
  function SelectPrev(p: PageState, e: Extent): (r: PageState)
    ensures r == p.(selected := r.selected)
    ensures (forall j | 0 <= j < |Document.Nodes(p.content)| ::
               !LinkBefore(p.selected.0, Document.Nodes(p.content)[j])) ==> r == p
    ensures (exists j | 0 <= j < |Document.Nodes(p.content)| :: LinkBefore(p.selected.0, Document.Nodes(p.content)[j])) ==>
            exists k | 0 <= k < |Document.Nodes(p.content)| ::
              LinkBefore(p.selected.0, Document.Nodes(p.content)[k]) &&
              (forall j | k < j < |Document.Nodes(p.content)| ::
                 !LinkBefore(p.selected.0, Document.Nodes(p.content)[j])) &&
              r.selected == SelectionRange(e, Document.Nodes(p.content)[k])
  {
    SelectNode(p, FindLast(Document.Nodes(p.content), (n: Document.Node) => LinkBefore(p.selected.0, n)), e)
  }

  /** `select_next`: the first link, in document order, whose index is past the selection. */
  function SelectNext(p: PageState, e: Extent): (r: PageState)
    ensures r == p.(selected := r.selected)
    ensures (forall j | 0 <= j < |Document.Nodes(p.content)| ::
               !LinkAfter(p.selected.1, Document.Nodes(p.content)[j])) ==> r == p
    ensures (exists j | 0 <= j < |Document.Nodes(p.content)| :: LinkAfter(p.selected.1, Document.Nodes(p.content)[j])) ==>
            exists k | 0 <= k < |Document.Nodes(p.content)| ::
              LinkAfter(p.selected.1, Document.Nodes(p.content)[k]) &&
              (forall j | 0 <= j < k :: !LinkAfter(p.selected.1, Document.Nodes(p.content)[j])) &&
              r.selected == SelectionRange(e, Document.Nodes(p.content)[k])
  {
    SelectNode(p, FindFirst(Document.Nodes(p.content), (n: Document.Node) => LinkAfter(p.selected.1, n)), e)
  }

  /** `select_last`: the last link, in document order, whose index is past the selection. */
  function SelectLast(p: PageState, e: Extent): (r: PageState)
    ensures r == p.(selected := r.selected)
    ensures (forall j | 0 <= j < |Document.Nodes(p.content)| ::
               !LinkAfter(p.selected.1, Document.Nodes(p.content)[j])) ==> r == p
    ensures (exists j | 0 <= j < |Document.Nodes(p.content)| :: LinkAfter(p.selected.1, Document.Nodes(p.content)[j])) ==>
            exists k | 0 <= k < |Document.Nodes(p.content)| ::
              LinkAfter(p.selected.1, Document.Nodes(p.content)[k]) &&
              (forall j | k < j < |Document.Nodes(p.content)| ::
                 !LinkAfter(p.selected.1, Document.Nodes(p.content)[j])) &&
              r.selected == SelectionRange(e, Document.Nodes(p.content)[k])
  {
    SelectNode(p, FindLast(Document.Nodes(p.content), (n: Document.Node) => LinkAfter(p.selected.1, n)), e)
  }

  /**
   * `open_link`: the node at the selection start is looked up; an internal
   * link asks for its page to be loaded, anything else is just consumed.
   */
  function OpenLink(p: PageState): (r: Outcome)
    requires p.selected.0 < |Document.Nodes(p.content)|
    ensures var kind := Document.Nodes(p.content)[p.selected.0].kind;
      if kind.Link? && kind.target.Internal? then r == LoadPage(kind.target.page) else r == Consumed
  {
    match Document.Nth(p.content, p.selected.0).value.kind
    case Link(Internal(page)) => LoadPage(page)
    case _ => Consumed
  }

  // ---------------------------------------------------------------------
  // Highlighting and jumping to a header

  /** `Word::node`: the node a word was produced from; `None` for synthetic words. */
  function WordNode(d: Document.Doc, w: Word): Option<Document.Node> {
    if w.index.None? then None else Document.Nth(d, w.index.value)
  }

  /** The word's node lies in the inclusive index range `lo..=hi`. */
  predicate WordInRange(d: Document.Doc, w: Word, lo: nat, hi: nat) {
    WordNode(d, w).Some? && lo <= WordNode(d, w).value.index <= hi
  }

  /** The drawing test of `render`: a word is underlined when its node is selected. */
  predicate Highlighted(p: PageState, w: Word) {
    WordInRange(p.content, w, p.selected.0, p.selected.1)
  }

  /** A line shows some word whose node lies in `lo..=hi`. */
  predicate LineShows(d: Document.Doc, line: Line, lo: nat, hi: nat) {
    exists w | w in line :: WordInRange(d, w, lo, hi)
  }

  /** The special anchor that stands for the top of the page. */
  const ContentTop: string := "Content_Top"

  /** A header node with the given anchor id. */
  predicate HeaderWithId(anchor: string, n: Document.Node) {
    n.kind.Header? && n.kind.id == anchor
  }

  /** The position of the last header with the given anchor, in document order. */
  function LastHeader(d: Document.Doc, anchor: string): (r: Option<nat>)
    ensures r.None? <==> forall j | 0 <= j < |Document.Nodes(d)| :: !HeaderWithId(anchor, Document.Nodes(d)[j])
    ensures r.Some? ==> r.value < |Document.Nodes(d)| && HeaderWithId(anchor, Document.Nodes(d)[r.value])
    ensures r.Some? ==> forall j | r.value < j < |Document.Nodes(d)| :: !HeaderWithId(anchor, Document.Nodes(d)[j])
  {
    FindLast(Document.Nodes(d), (n: Document.Node) => HeaderWithId(anchor, n))
  }

  /** The first line that shows a word of the index range `lo..=hi`. */
  function FirstLineShowing(d: Document.Doc, lines: seq<Line>, lo: nat, hi: nat): (r: Option<nat>)
    ensures r.None? <==> forall y | 0 <= y < |lines| :: !LineShows(d, lines[y], lo, hi)
    ensures r.Some? ==> r.value < |lines| && LineShows(d, lines[r.value], lo, hi)
    ensures r.Some? ==> forall y | 0 <= y < r.value :: !LineShows(d, lines[y], lo, hi)
  {
    FindFirst(lines, (line: Line) => LineShows(d, line, lo, hi))
  }

  /** `select_header` looks at the first node unless it jumps to the top. */
  predicate SelectHeaderDefined(p: PageState, anchor: string) {
    anchor != ContentTop ==> p.content.root.Some?
  }

  /**
   * `select_header`: the top anchor scrolls to line 0; any other anchor
   * scrolls to the first line of a fresh render that shows a word of the
   * last header with that id (from the header's selection range under the
   * given extent). When there is no such header or no such line, nothing
   * changes.
   */
  function SelectHeader(p: PageState, anchor: string, env: Env, e: Extent): (r: PageState)
    requires SelectHeaderDefined(p, anchor)
    ensures r == p.(viewport := p.viewport.(y := r.viewport.y))
    ensures anchor == ContentTop ==> r.viewport.y == 0
    ensures anchor != ContentTop && LastHeader(p.content, anchor).None? ==> r == p
    ensures anchor != ContentTop && LastHeader(p.content, anchor).Some? ==>
      var range := SelectionRange(e, Document.Nodes(p.content)[LastHeader(p.content, anchor).value]);
      var line := FirstLineShowing(p.content, RenderPage(p, p.viewport.width, env), range.0, range.1);
      r.viewport.y == if line.Some? then TruncateU16(line.value) else p.viewport.y
  {
    if anchor == ContentTop then p.(viewport := p.viewport.(y := 0))
    else
      match LastHeader(p.content, anchor)
      case None => p
      case Some(k) =>
        var (first, last) := SelectionRange(e, Document.Nodes(p.content)[k]);
        match FirstLineShowing(p.content, RenderPage(p, p.viewport.width, env), first, last)
        case None => p
        case Some(y) => p.(viewport := p.viewport.(y := TruncateU16(y)))
  }

  // ---------------------------------------------------------------------
  // Event handling

  /** The source panics on the two unimplemented actions and on the conditions above. */
  predicate UpdateDefined(p: PageState, a: Action) {
    match a
    case Page(pa) =>
      !pa.SelectTopLink? && !pa.SelectBottomLink? &&
      (pa.GoToHeader? ==> SelectHeaderDefined(p, pa.anchor))
    case ScrollUp(_) => ScrollUpDefined(p)
    case ScrollHalfUp => ScrollUpDefined(p)
    case ScrollDown(n) => ScrollDownDefined(p, n)
    case ScrollHalfDown => ScrollDownDefined(p, p.viewport.height / 2)
    case ScrollToBottom =>
      p.viewport.width in p.cache ==>
        ScrollDownDefined(p, LineCount(p.cache[p.viewport.width]))
    case _ => true
  }

  /**
   * `update`: dispatches an action to the operations above, selecting
   * links and headers up to their last child as the program does.
   * Everything but `Other` is consumed; the document itself never changes.
   */
  function Update(p: PageState, a: Action, env: Env): (r: (PageState, Outcome))
    requires UpdateDefined(p, a)
    ensures r.1 == (if a.Other? then Ignored else Consumed)
    ensures r.0.content == p.content
    ensures a.Other? ==> r.0 == p
    ensures a.ScrollToTop? ==> r.0 == p.(viewport := p.viewport.(y := 0))
    ensures a.ScrollToBottom? && !p.isContents && p.viewport.width in p.cache ==>
              r.0.viewport.y == Ceiling(p)
    ensures a.ScrollToBottom? ==>
              r.0 == if p.viewport.width in p.cache then ScrollDown(p, LineCount(p.cache[p.viewport.width])) else p
    ensures a.ScrollUp? ==> r.0 == ScrollUp(p, a.amount)
    ensures a.ScrollDown? ==> r.0 == ScrollDown(p, a.amount)
    ensures a.ScrollHalfUp? ==> r.0 == ScrollUp(p, p.viewport.height / 2)
    ensures a.ScrollHalfDown? ==> r.0 == ScrollDown(p, p.viewport.height / 2)
    ensures a.Resize? ==> r.0 == Resize(p, a.width, a.height)
    ensures a.Page? && a.action.ToggleContents? ==> r.0 == p.(isContents := !p.isContents)
    ensures a.Page? && a.action.SwitchRenderer? ==> r.0 == SwitchRenderer(p, a.action.renderer)
    ensures a.Page? && a.action.SelectFirstLink? ==> r.0 == SelectFirst(p, ToLastChild)
    ensures a.Page? && a.action.SelectLastLink? ==> r.0 == SelectLast(p, ToLastChild)
    ensures a.Page? && a.action.SelectPrevLink? ==> r.0 == SelectPrev(p, ToLastChild)
    ensures a.Page? && a.action.SelectNextLink? ==> r.0 == SelectNext(p, ToLastChild)
    ensures a.Page? && a.action.GoToHeader? ==>
              r.0 == SelectHeader(p, a.action.anchor, env, ToLastChild)
    ensures r.0.renderer != p.renderer ==> r.0.cache == map[]
    ensures r.0.cache == p.cache || r.0.cache == map[]
  {
    match a
    case Page(pa) =>
      var q := match pa
        case SwitchRenderer(renderer) => SwitchRenderer(p, renderer)
        case ToggleContents => p.(isContents := !p.isContents)
        case SelectFirstLink => SelectFirst(p, ToLastChild)
        case SelectLastLink => SelectLast(p, ToLastChild)
        case SelectTopLink => assert false; p
        case SelectBottomLink => assert false; p
        case SelectPrevLink => SelectPrev(p, ToLastChild)
        case SelectNextLink => SelectNext(p, ToLastChild)
        case GoToHeader(anchor) => SelectHeader(p, anchor, env, ToLastChild);
      (q, Consumed)
    case ScrollUp(n) => (ScrollUp(p, n), Consumed)
    case ScrollDown(n) => (ScrollDown(p, n), Consumed)
    case ScrollHalfUp => (ScrollUp(p, p.viewport.height / 2), Consumed)
    case ScrollHalfDown => (ScrollDown(p, p.viewport.height / 2), Consumed)
    case ScrollToTop => (p.(viewport := p.viewport.(y := 0)), Consumed)
    case ScrollToBottom =>
      if p.viewport.width in p.cache then
        (ScrollDown(p, LineCount(p.cache[p.viewport.width])), Consumed)
      else (p, Consumed)
    case Resize(width, height) => (Resize(p, width, height), Consumed)
    case Other => (p, Ignored)
  }
}

=== FILE: page_properties.dfy ===
/**
 * Properties of the page component: the renderer cycle, scrolling and the
 * contents cursor undo each other, link selection walks the document in
 * order without wrapping, and the render cache is invisible.
 */
module PageProperties {
  import opened Basics
  import opened Words
  import opened Search
  import Actions
  import opened Page
  import Document
  import Styles
  import DefaultRenderer

  // ---------------------------------------------------------------------
  // Renderer cycle

  /** Four steps of `Renderer::next` come back to the start. */
  lemma NextCycles(r: Actions.Renderer)
    ensures Next(Next(Next(Next(r)))) == r
    ensures r != Next(Next(r))
  {
  }

  // ---------------------------------------------------------------------
  // Scrolling

  /** Within the contents list, one step down and one step up cancel out. */
  lemma CursorRoundTrip(c: ContentsState)
    requires c.selected.Some? && c.selected.value < c.maxIdx
    ensures CursorUpDefined(CursorDown(c)) && CursorUp(CursorDown(c)) == c
    ensures CursorUpDefined(c) && CursorDownDefined(CursorUp(c)) && CursorDown(CursorUp(c)) == c
  {
  }

  /** Scrolling the page down by an amount that fits, then up by it, restores the page. */
  lemma ScrollRoundTrip(p: PageState, amount: U16)
    requires !p.isContents && ScrollDownDefined(p, amount)
    requires p.viewport.width in p.cache ==>
               Bottom(p.viewport) + amount < LineCount(p.cache[p.viewport.width])
    ensures ScrollUpDefined(ScrollDown(p, amount))
    ensures ScrollUp(ScrollDown(p, amount), amount) == p
  {
  }

  /** Scrolling to the bottom twice is the same as once. */
  lemma ScrollToBottomIdempotent(p: PageState, env: Env)
    requires !p.isContents && p.viewport.width in p.cache
    requires UpdateDefined(p, Actions.ScrollToBottom)
    requires 2 * LineCount(p.cache[p.viewport.width]) + p.viewport.height < 0x1_0000
    ensures UpdateDefined(Update(p, Actions.ScrollToBottom, env).0, Actions.ScrollToBottom)
    ensures Update(Update(p, Actions.ScrollToBottom, env).0, Actions.ScrollToBottom, env) ==
            Update(p, Actions.ScrollToBottom, env)
  {
  }

  /** Toggling the contents list twice restores the page. */
  lemma ToggleTwice(p: PageState, env: Env)
    ensures Update(Update(p, Actions.Page(Actions.ToggleContents), env).0, Actions.Page(Actions.ToggleContents), env) ==
            (p, Actions.Consumed)
  {
  }

  // ---------------------------------------------------------------------
  // Link selection

  /**
   * In a well-formed document `select_next` moves to the link with the
   * smallest index past the selection, and selects from that link on,
   * whichever extent the selection has.
   */
  lemma {:induction false} SelectNextAdvances(p: PageState, e: Extent)
    requires Document.WellFormed(p.content)
    requires exists j | 0 <= j < |Document.Nodes(p.content)| :: LinkAfter(p.selected.1, Document.Nodes(p.content)[j])
    ensures p.selected.1 < SelectNext(p, e).selected.0 <= SelectNext(p, e).selected.1
    ensures SelectNext(p, e).selected.0 < |Document.Nodes(p.content)|
    ensures forall m | m in Document.Nodes(p.content) && LinkAfter(p.selected.1, m) ::
              SelectNext(p, e).selected.0 <= m.index
    ensures Document.IsLink(Document.Nodes(p.content)[SelectNext(p, e).selected.0])
  {
    var ns := Document.Nodes(p.content);
    var f := (n: Document.Node) => LinkAfter(p.selected.1, n);
    Document.NodesIndexed(p.content);
    FirstIsLeast(ns, f);
    var k := FindFirst(ns, f).value;
    Document.Containment(ns[k]);
    assert SelectNext(p, e).selected == SelectionRange(e, ns[k]);
  }

  /** In a sequence indexed by position, the first match has the least index of all matches. */
  lemma FirstIsLeast(ns: seq<Document.Node>, f: Document.Node -> bool)
    requires forall i | 0 <= i < |ns| :: ns[i].index == i
    requires FindFirst(ns, f).Some?
    ensures forall m | m in ns && f(m) :: FindFirst(ns, f).value <= m.index
  {
  }

  /** In a sequence indexed by position, the last match has the greatest index of all matches. */
  lemma LastIsGreatest(ns: seq<Document.Node>, f: Document.Node -> bool)
    requires forall i | 0 <= i < |ns| :: ns[i].index == i
    requires FindLast(ns, f).Some?
    ensures forall m | m in ns && f(m) :: m.index <= FindLast(ns, f).value
  {
  }

  /**
   * In a well-formed document `select_prev` moves to the link with the
   * largest index before the selection.
   */
  lemma {:induction false} SelectPrevRetreats(p: PageState, e: Extent)
    requires Document.WellFormed(p.content)
    requires exists j | 0 <= j < |Document.Nodes(p.content)| :: LinkBefore(p.selected.0, Document.Nodes(p.content)[j])
    ensures SelectPrev(p, e).selected.0 < p.selected.0
    ensures SelectPrev(p, e).selected.0 <= SelectPrev(p, e).selected.1
    ensures SelectPrev(p, e).selected.0 < |Document.Nodes(p.content)|
    ensures forall m | m in Document.Nodes(p.content) && LinkBefore(p.selected.0, m) ::
              m.index <= SelectPrev(p, e).selected.0
    ensures Document.IsLink(Document.Nodes(p.content)[SelectPrev(p, e).selected.0])
  {
    var ns := Document.Nodes(p.content);
    var f := (n: Document.Node) => LinkBefore(p.selected.0, n);
    Document.NodesIndexed(p.content);
    LastIsGreatest(ns, f);
    var k := FindLast(ns, f).value;
    Document.Containment(ns[k]);
    assert SelectPrev(p, e).selected == SelectionRange(e, ns[k]);
  }

  /**
   * No wrap-around at the end: once the last link is selected, moving to
   * the next link changes nothing.
   */
  lemma {:induction false} NextAfterLastUnchanged(p: PageState, e: Extent)
    requires Document.WellFormed(p.content)
    requires exists j | 0 <= j < |Document.Nodes(p.content)| :: LinkAfter(p.selected.1, Document.Nodes(p.content)[j])
    ensures SelectNext(SelectLast(p, e), e) == SelectLast(p, e)
  {
    var ns := Document.Nodes(p.content);
    var k := FindLast(ns, (n: Document.Node) => LinkAfter(p.selected.1, n)).value;
    Document.NodesIndexed(p.content);
    Document.Containment(ns[k]);
    var q := SelectLast(p, e);
    assert q.selected == SelectionRange(e, ns[k]);
    assert q.content == p.content;
    forall j | 0 <= j < |ns|
      ensures !LinkAfter(q.selected.1, ns[j])
    {
      assert k < j ==> !LinkAfter(p.selected.1, ns[j]);
    }
    assert FindFirst(ns, (n: Document.Node) => LinkAfter(q.selected.1, n)).None?;
  }

  /**
   * No wrap-around at the start: once the first link is selected, moving to
   * the previous link changes nothing.
   */
  lemma {:induction false} PrevAfterFirstUnchanged(p: PageState, e: Extent)
    requires Document.WellFormed(p.content)
    requires exists j | 0 <= j < |Document.Nodes(p.content)| :: Document.IsLink(Document.Nodes(p.content)[j])
    ensures SelectPrev(SelectFirst(p, e), e) == SelectFirst(p, e)
  {
    var ns := Document.Nodes(p.content);
    var k := FindFirst(ns, Document.IsLink).value;
    Document.NodesIndexed(p.content);
    var q := SelectFirst(p, e);
    assert q.selected == SelectionRange(e, ns[k]);
    assert q.content == p.content;
    forall j | 0 <= j < |ns|
      ensures !LinkBefore(q.selected.0, ns[j])
    {
      assert j < k ==> !Document.IsLink(ns[j]);
    }
    assert FindLast(ns, (n: Document.Node) => LinkBefore(q.selected.0, n)).None?;
  }

  /**
   * Opening a selected link: once a node's range is selected, `open_link`
   * looks up that very node, so an internal link loads its page.
   */
  lemma {:induction false} OpenSelectedLink(p: PageState, k: nat, e: Extent)
    requires Document.WellFormed(p.content) && k < |Document.Nodes(p.content)|
    ensures var q := p.(selected := SelectionRange(e, Document.Nodes(p.content)[k]));
      q.selected.0 < |Document.Nodes(q.content)| &&
      var kind := Document.Nodes(p.content)[k].kind;
      OpenLink(q) == if kind.Link? && kind.target.Internal? then Actions.LoadPage(kind.target.page) else Actions.Consumed
  {
    Document.NodesIndexed(p.content);
  }

  // ---------------------------------------------------------------------
  // Highlighting

  /**
   * In a well-formed document a word is highlighted exactly when it came
   * from a node whose index lies in the selection.
   */
  lemma {:induction false} HighlightedIff(p: PageState, w: Word)
    requires Document.WellFormed(p.content)
    ensures Highlighted(p, w) <==>
      w.index.Some? && w.index.value < |Document.Nodes(p.content)| &&
      p.selected.0 <= w.index.value <= p.selected.1
  {
    if w.index.Some? {
      Document.NthIndex(p.content, w.index.value);
    }
  }

  /**
   * With a link selected, a word is highlighted exactly when it came from a
   * node of the link's subtree.
   */
  lemma {:induction false} HighlightIffInSubtree(p: PageState, k: nat, w: Word)
    requires Document.WellFormed(p.content) && k < |Document.Nodes(p.content)|
    requires p.selected == Document.SubtreeRange(Document.Nodes(p.content)[k])
    ensures Highlighted(p, w) <==>
      w.index.Some? &&
      exists m | m in Document.Descendants(Document.Nodes(p.content)[k]) :: m.index == w.index.value
  {
    var n := Document.Nodes(p.content)[k];
    Document.NodesIndexed(p.content);
    Document.Containment(n);
    Document.PreOrderIndex(n);
    Document.SubtreeWithin(p.content.root.value);
    HighlightedIff(p, w);
    if Highlighted(p, w) {
      var i := w.index.value;
      assert Document.Descendants(n)[i - n.index].index == i;
      assert Document.Descendants(n)[i - n.index] in Document.Descendants(n);
    }
  }

  /** A link whose text is set in bold: the link is node 0, the bold node 1, the text node 2. */
  function BoldLink(): Document.Node {
    Document.Node(0, Document.Link(Document.Internal("Foo")),
      [Document.Node(1, Document.Bold, [Document.Node(2, Document.Text("bar"), [])])])
  }

  /**
   * The program's selection range stops at the last child: with a bold
   * link selected, the word of the link's own text is not underlined. The
   * subtree range underlines it.
   */
  lemma LastChildRangeMissesNestedText()
    ensures var link := BoldLink();
      var d := Document.Doc(Some(link));
      var w := Word(Some(2), "bar", Styles.Plain, 3, 0);
      var p := NewPage(d, None);
      Document.WellFormed(d) &&
      Document.Descendants(link)[2] == Document.Node(2, Document.Text("bar"), []) &&
      !Highlighted(p.(selected := Document.ChildRange(link)), w) &&
      Highlighted(p.(selected := Document.SubtreeRange(link)), w)
  {
    var link := BoldLink();
    var bold := link.children[0];
    var text := bold.children[0];
    assert Document.Descendants(text) == [text];
    assert Document.Forest(bold.children) == [text];
    assert Document.Descendants(bold) == [bold, text];
    assert Document.Forest(link.children) == [bold, text];
    assert Document.Descendants(link) == [link, bold, text];
  }

  /**
   * A link whose bold text holds a second link: the outer link is node 0,
   * the bold node 1, the inner link 2 and its text 3.
   */
  function NestedLinks(): Document.Node {
    Document.Node(0, Document.Link(Document.Internal("Outer")),
      [Document.Node(1, Document.Bold,
        [Document.Node(2, Document.Link(Document.Internal("Inner")), [Document.Node(3, Document.Text("x"), [])])])])
  }

  /**
   * The extent also changes navigation. With the program's last-child range
   * the outer link is selected as `(0, 1)`, and the next link is the inner
   * one. With the whole-subtree range the outer link covers `(0, 3)`, the
   * inner link lies inside it, and moving to the next link changes nothing.
   */
  lemma ExtentChangesNavigation()
    ensures var d := Document.Doc(Some(NestedLinks()));
      var p := NewPage(d, None);
      Document.WellFormed(d) &&
      SelectFirst(p, ToLastChild).selected == (0, 1) &&
      SelectNext(SelectFirst(p, ToLastChild), ToLastChild).selected == (2, 3) &&
      SelectFirst(p, ToLastDescendant).selected == (0, 3) &&
      SelectNext(SelectFirst(p, ToLastDescendant), ToLastDescendant) == SelectFirst(p, ToLastDescendant)
  {
    var outer := NestedLinks();
    var bold := outer.children[0];
    var inner := bold.children[0];
    var text := inner.children[0];
    assert Document.Descendants(text) == [text];
    assert Document.Forest(inner.children) == [text];
    assert Document.Descendants(inner) == [inner, text];
    assert Document.Forest(bold.children) == [inner, text];
    assert Document.Descendants(bold) == [bold, inner, text];
    assert Document.Forest(outer.children) == [bold, inner, text];
    assert Document.Descendants(outer) == [outer, bold, inner, text];
  }

  /** A header whose text sits in a span: the header is node 0, the span 1, the text 2. */
  function SpannedHeader(): Document.Node {
    Document.Node(0, Document.Header("H", 2),
      [Document.Node(1, Document.Span, [Document.Node(2, Document.Text("x"), [])])])
  }

  /** Lines that are all non-empty hold at least one word each. */
  lemma {:induction false} FlattenLength(ls: seq<Line>)
    requires forall i | 0 <= i < |ls| :: |ls[i]| > 0
    ensures |Flatten(ls)| >= |ls|
  {
    if |ls| > 0 {
      FlattenLength(ls[1..]);
    }
  }

  /** A line breaker can only return a single word as one line. */
  lemma SingleWordPartition(ls: seq<Line>, w: Word)
    requires Partitions(ls, [w])
    ensures ls == [[w]]
  {
    FlattenLength(ls);
    assert ls == [ls[0]];
  }

  /** A fresh line at width 0, without padding or prefix: where the walk of `SpannedHeader` writes. */
  predicate AtFreshLine(s: DefaultRenderer.State) {
    s.current == [] && s.width == 0 && s.padding == 0 && s.prefix.None?
  }

  /** The word a text node `x` with index 2 becomes in state `s`. */
  function LetterWord(s: DefaultRenderer.State): Word {
    Word(Some(2), "x", DefaultRenderer.CurrentStyle(s), 1, 0)
  }

  lemma SplitSingleLetter()
    ensures SplitWhitespace("x") == ["x"]
  {
    assert !IsWhitespace('x');
    assert TokenLength("x"[1..]) == 0;
    assert TokenLength("x") == 1;
    assert "x"[..1] == "x" && "x"[1..] == [];
  }

  lemma WrapLetter(s: DefaultRenderer.State, fit: Fitter)
    requires AtFreshLine(s)
    ensures DefaultRenderer.WrapAppend(s, [LetterWord(s)], fit) == s.(current := [LetterWord(s)])
  {
    var wx := LetterWord(s);
    SingleWordPartition(DefaultRenderer.Breaks(s, [wx], fit), wx);
    assert DefaultRenderer.StartLine(s, wx) == (s, 0);
  }

  lemma RenderLetter(s: DefaultRenderer.State, t: Document.Node, fit: Fitter)
    requires AtFreshLine(s) && t == Document.Node(2, Document.Text("x"), [])
    ensures DefaultRenderer.RenderNode(s, t, fit) == s.(current := [LetterWord(s)])
  {
    var p := s.(current := [LetterWord(s)]);
    EnterLetter(s, t, fit);
    RenderNodeSteps(s, t, fit);
    assert DefaultRenderer.RenderChildren(p, t, 0, fit) == p;
    LeaveText(p, t);
  }

  /** Entering the text node `x` at a fresh line puts its one word on the line. */
  lemma EnterLetter(s: DefaultRenderer.State, t: Document.Node, fit: Fitter)
    requires AtFreshLine(s) && t == Document.Node(2, Document.Text("x"), [])
    ensures DefaultRenderer.PreChildren(s, t, fit) == s.(current := [LetterWord(s)])
  {
    SplitSingleLetter();
    assert DefaultRenderer.Retract(s, "x") == s;
    assert DefaultRenderer.TextWords("x", 2, DefaultRenderer.CurrentStyle(s)) == [LetterWord(s)];
    WrapLetter(s, fit);
  }

  /** Leaving a text node changes nothing. */
  lemma LeaveText(s: DefaultRenderer.State, t: Document.Node)
    requires t.kind.Text?
    ensures DefaultRenderer.PostChildren(s, t) == s
  {
  }

  /** A span adds nothing on entry and a gap on exit. */
  lemma SpanSteps(s: DefaultRenderer.State, sp: Document.Node, fit: Fitter)
    requires sp.kind.Span?
    ensures DefaultRenderer.PreChildren(s, sp, fit) == s
    ensures DefaultRenderer.PostChildren(s, sp) == DefaultRenderer.AddWhitespace(s)
  {
  }

  /** Rendering a node is entering it, walking its children and leaving it. */
  lemma RenderNodeSteps(s: DefaultRenderer.State, n: Document.Node, fit: Fitter)
    ensures DefaultRenderer.RenderNode(s, n, fit) ==
      DefaultRenderer.PostChildren(
        DefaultRenderer.RenderChildren(DefaultRenderer.PreChildren(s, n, fit), n, 0, fit), n)
  {
  }

  /** Walking the children of a node with one child renders that child. */
  lemma OnlyChild(s: DefaultRenderer.State, n: Document.Node, fit: Fitter)
    requires |n.children| == 1
    ensures DefaultRenderer.RenderChildren(s, n, 0, fit) == DefaultRenderer.RenderNode(s, n.children[0], fit)
  {
    var t := DefaultRenderer.RenderNode(s, n.children[0], fit);
    assert DefaultRenderer.RenderChildren(t, n, 1, fit) == t;
  }

  lemma RenderLetterSpan(s: DefaultRenderer.State, sp: Document.Node, fit: Fitter)
    requires AtFreshLine(s) && sp == SpannedHeader().children[0]
    ensures DefaultRenderer.RenderNode(s, sp, fit) == s.(current := [LetterWord(s), DefaultRenderer.Gap(1)])
  {
    RenderLetter(s, sp.children[0], fit);
    SpanSteps(s, sp, fit);
    OnlyChild(s, sp, fit);
    var s2 := s.(current := [LetterWord(s)]);
    SpanSteps(s2, sp, fit);
    assert DefaultRenderer.AddWhitespace(s2) == s.(current := [LetterWord(s), DefaultRenderer.Gap(1)]) by {
      assert !DefaultRenderer.IsLastWhitespace(s2);
    }
    RenderNodeSteps(s, sp, fit);
  }

  /** Entering a header at the very start opens with a blank line. */
  lemma EnterHeaderAtStart(h: Document.Node, fit: Fitter)
    requires h.kind.Header?
    ensures var s1 := DefaultRenderer.PreChildren(DefaultRenderer.Initial(0), h, fit);
      AtFreshLine(s1) && s1.lines == [[]]
  {
  }

  /** Leaving a header finishes its line and closes with a blank line. */
  lemma LeaveHeader(s: DefaultRenderer.State, h: Document.Node, line: Line)
    requires h.kind.Header? && s.lines == [[]] && s.current == line && |line| > 0
    ensures DefaultRenderer.PostChildren(s, h).lines == [[], line, []]
  {
  }

  /** The default renderer draws `SpannedHeader` as a blank line, the text, and a blank line. */
  lemma RenderSpannedHeader(fit: Fitter)
    ensures var lines := DefaultRenderer.RenderDocument(Document.Doc(Some(SpannedHeader())), 0, fit);
      |lines| == 3 && lines[0] == [] && lines[2] == [] &&
      |lines[1]| == 2 && lines[1][0].index == Some(2) && lines[1][1] == DefaultRenderer.Gap(1)
  {
    var h := SpannedHeader();
    var s1 := DefaultRenderer.PreChildren(DefaultRenderer.Initial(0), h, fit);
    EnterHeaderAtStart(h, fit);
    RenderLetterSpan(s1, h.children[0], fit);
    var line := [LetterWord(s1), DefaultRenderer.Gap(1)];
    OnlyChild(s1, h, fit);
    assert DefaultRenderer.RenderChildren(s1, h, 0, fit) == s1.(current := line);
    LeaveHeader(s1.(current := line), h, line);
    RenderNodeSteps(DefaultRenderer.Initial(0), h, fit);
    assert DefaultRenderer.RenderNode(DefaultRenderer.Initial(0), h, fit).lines == [[], line, []];
  }

  /** The document of `SpannedHeader`: well-formed, three nodes, and its header is found. */
  lemma SpannedHeaderDoc()
    ensures var d := Document.Doc(Some(SpannedHeader()));
      Document.WellFormed(d) && |Document.Nodes(d)| == 3 &&
      Document.Nodes(d)[2] == SpannedHeader().children[0].children[0] &&
      LastHeader(d, "H") == Some(0) &&
      Document.ChildRange(SpannedHeader()) == (0, 1) &&
      Document.SubtreeRange(SpannedHeader()) == (0, 2)
  {
    var h := SpannedHeader();
    var sp := h.children[0];
    var t := sp.children[0];
    assert Document.Descendants(t) == [t];
    assert Document.Forest(sp.children) == [t];
    assert Document.Descendants(sp) == [sp, t];
    assert Document.Forest(h.children) == [sp, t];
    assert Document.Descendants(h) == [h, sp, t];
  }

  /** Three lines of which only the middle one shows a word, of node 2. */
  lemma OnlyMiddleLineShows(d: Document.Doc, lines: seq<Line>)
    requires |lines| == 3 && lines[0] == [] && lines[2] == []
    requires |lines[1]| == 2 && lines[1][1].index.None?
    requires WordNode(d, lines[1][0]).Some? && WordNode(d, lines[1][0]).value.index == 2
    ensures FirstLineShowing(d, lines, 0, 1).None?
    ensures FirstLineShowing(d, lines, 0, 2) == Some(1)
  {
    assert lines[1] == [lines[1][0], lines[1][1]];
    assert LineShows(d, lines[1], 0, 2) by {
      assert lines[1][0] in lines[1] && WordInRange(d, lines[1][0], 0, 2);
    }
  }

  /** Rendered for the jump, `SpannedHeader` shows node 2 on line 1 and nothing else. */
  lemma SpannedHeaderLines(env: Env)
    ensures var d := Document.Doc(Some(SpannedHeader()));
      var lines := RenderPage(NewPage(d, None), 0, env);
      FirstLineShowing(d, lines, 0, 1).None? && FirstLineShowing(d, lines, 0, 2) == Some(1)
  {
    var d := Document.Doc(Some(SpannedHeader()));
    SpannedHeaderDoc();
    RenderSpannedHeader(env.fit);
    var lines := RenderPage(NewPage(d, None), 0, env);
    assert WordNode(d, lines[1][0]) == Some(Document.Nodes(d)[2]);
    OnlyMiddleLineShows(d, lines);
  }

  /**
   * The program's range for a header stops at its last child, so jumping to
   * a header whose text sits in a span finds no line: the default renderer
   * draws the text on line 1, the range `(0, 1)` matches no word there, and
   * the view stays put. The whole-subtree range `(0, 2)` scrolls to line 1.
   */
  lemma HeaderJumpMissesNestedText(env: Env)
    ensures var d := Document.Doc(Some(SpannedHeader()));
      var p := NewPage(d, None);
      Document.WellFormed(d) &&
      SelectHeader(p, "H", env, ToLastChild) == p &&
      SelectHeader(p, "H", env, ToLastDescendant).viewport.y == 1
  {
    var h := SpannedHeader();
    var d := Document.Doc(Some(h));
    var p := NewPage(d, None);
    SpannedHeaderDoc();
    SpannedHeaderLines(env);
    assert Document.Nodes(d)[0] == h;
    assert SelectionRange(ToLastChild, h) == (0, 1);
    assert SelectionRange(ToLastDescendant, h) == (0, 2);
    JumpFound(p, "H", env, ToLastChild);
    JumpFound(p, "H", env, ToLastDescendant);
  }

  /** `SelectHeader` once the header has been found, spelled out. */
  lemma JumpFound(p: PageState, anchor: string, env: Env, e: Extent)
    requires anchor != ContentTop && p.content.root.Some? && LastHeader(p.content, anchor).Some?
    ensures var range := SelectionRange(e, Document.Nodes(p.content)[LastHeader(p.content, anchor).value]);
      var line := FirstLineShowing(p.content, RenderPage(p, p.viewport.width, env), range.0, range.1);
      SelectHeader(p, anchor, env, e) == if line.Some? then p.(viewport := p.viewport.(y := TruncateU16(line.value))) else p
  {
  }

  // ---------------------------------------------------------------------
  // The render cache

  /**
   * A new page starts with a coherent (empty) cache at the top of the
   * document it was given, and its first render draws that document with
   * the default renderer.
   */
  lemma NewPageRendersContent(content: Document.Doc, sections: Option<nat>, width: U16, height: U16, env: Env)
    ensures var p := NewPage(content, sections);
      CacheCoherent(p, env) && p.viewport.y == 0 &&
      Update(p, Actions.ScrollToBottom, env).0 == p &&
      Render(p, width, height, env).1 == DefaultRenderer.RenderDocument(content, width, env.fit)
  {
  }

  /** A second render at the same size finds everything in place. */
  lemma RenderIdempotent(p: PageState, width: U16, height: U16, env: Env)
    ensures var (q, lines) := Render(p, width, height, env);
      Render(q, width, height, env) == (q, lines)
  {
  }

  /**
   * The cache is invisible: while it is coherent, a render returns exactly
   * what the current renderer draws at that width, and it stays coherent.
   */
  lemma RenderTransparent(p: PageState, width: U16, height: U16, env: Env)
    requires CacheCoherent(p, env)
    ensures Render(p, width, height, env).1 == RenderPage(p, width, env)
    ensures CacheCoherent(Render(p, width, height, env).0, env)
  {
  }

  /** Every action keeps the cache coherent: renders are flushed whenever the renderer changes. */
  lemma UpdateKeepsCacheCoherent(p: PageState, a: Actions.Action, env: Env)
    requires UpdateDefined(p, a) && CacheCoherent(p, env)
    ensures CacheCoherent(Update(p, a, env).0, env)
  {
  }
}

=== FILE: renderer.dfy ===
/**
 * The default renderer: a pre-order walk over the document tree that keeps
 * a small visitor state (finished lines, the partial current line, a
 * context stack, the active modifiers, left padding and an optional line
 * prefix) and turns text nodes into wrapped, styled words.
 */
module DefaultRenderer {
  import opened Basics
  import opened Styles
  import opened Words
  import Document

  /** Indentation applied inside a disambiguation notice. */
  const DisambiguationPadding: U8 := 1

  /** Marker character starting every line of a disambiguation notice. */
  const DisambiguationPrefix: char := '|'

  /** A nested semantic region that decides the base colour. */
  datatype Context = Normal | Header | WikiLink | MediaLink | ExternalLink | RedLink | Reflink

  /** The visitor state of one render. */
  datatype State = State(
    modifiers: set<Modifier>,
    lines: seq<Line>,
    current: Line,
    contexts: seq<Context>,
    width: U16,
    padding: U8,
    prefix: Option<char>)

  /** The state a render starts from. */
  function Initial(width: U16): State {
    State({}, [], [], [], width, 0, None)
  }

  /** Everything emitted so far: the finished lines followed by the current line. */
  function Content(s: State): Line {
    Flatten(s.lines) + s.current
  }

  /** `after` keeps all of `before` as its first lines. */
  predicate Extends(before: seq<Line>, after: seq<Line>) {
    |before| <= |after| && after[..|before|] == before
  }

  lemma ExtendsTrans(a: seq<Line>, b: seq<Line>, c: seq<Line>)
    requires Extends(a, b) && Extends(b, c)
    ensures Extends(a, c)
  {
    assert c[..|a|] == c[..|b|][..|a|];
  }

  /** No two adjacent finished lines are both blank. */
  predicate NoDoubleBlank(ls: seq<Line>) {
    forall i | 0 <= i < |ls| - 1 :: |ls[i]| > 0 || |ls[i + 1]| > 0
  }

  /** `after` extends `before` with lines that are all non-blank. */
  predicate AppendsNonBlank(before: seq<Line>, after: seq<Line>) {
    Extends(before, after) && forall i | |before| <= i < |after| :: |after[i]| > 0
  }

  lemma NonBlankKeepsSeparation(before: seq<Line>, after: seq<Line>)
    requires AppendsNonBlank(before, after)
    ensures NoDoubleBlank(before) ==> NoDoubleBlank(after)
  {
    if NoDoubleBlank(before) {
      forall i | 0 <= i < |after| - 1
        ensures |after[i]| > 0 || |after[i + 1]| > 0
      {
        if i + 1 < |before| {
          assert after[i] == before[i] && after[i + 1] == before[i + 1];
        }
      }
    }
  }

  /** The current line ends in two sentinel words. */
  predicate EndsInDoubleGap(line: Line) {
    |line| >= 2 && IsSentinel(line[|line| - 1]) && IsSentinel(line[|line| - 2])
  }

  /** The line ends in a word that belongs to a node. */
  predicate EndsReal(line: Line) {
    |line| > 0 && !IsSentinel(line[|line| - 1])
  }

  /** No line, finished or current, ends in two sentinel gaps. */
  predicate GapsUndoubled(s: State) {
    !EndsInDoubleGap(s.current) && forall i | 0 <= i < |s.lines| :: !EndsInDoubleGap(s.lines[i])
  }

  // ---------------------------------------------------------------------
  // Line primitives

  /** The last word of the current line is a sentinel. */
  predicate IsLastWhitespace(s: State) {
    |s.current| > 0 && IsSentinel(s.current[|s.current| - 1])
  }

  /** The current line is empty and the last finished line is a blank one. */
  predicate IsLastEmpty(s: State) {
    |s.current| == 0 && |s.lines| > 0 && |s.lines[|s.lines| - 1]| == 0
  }

  /** A sentinel of no content followed by `n` columns of whitespace. */
  function Gap(n: nat): (w: Word)
    ensures IsSentinel(w) && LineWidth([w]) == n
    ensures w.content == "" && w.width == 0 && w.gap == n
  {
    Word(None, "", Plain, 0, n)
  }

  /**
   * Appends a one-column sentinel gap, unless the current line already ends
   * in a sentinel.
   */
  function AddWhitespace(s: State): (r: State)
    ensures IsLastWhitespace(r)
    ensures IsLastWhitespace(s) ==> r == s
    ensures !IsLastWhitespace(s) ==> r.current == s.current + [Gap(1)]
    ensures r == s.(current := r.current)
    ensures !EndsInDoubleGap(s.current) ==> !EndsInDoubleGap(r.current)
  {
    if IsLastWhitespace(s) then s else s.(current := s.current + [Gap(1)])
  }

  function AddModifier(s: State, m: Modifier): (r: State)
    ensures m in r.modifiers && r.modifiers - {m} == s.modifiers - {m}
    ensures r == s.(modifiers := r.modifiers)
  {
    s.(modifiers := s.modifiers + {m})
  }

  function RemoveModifier(s: State, m: Modifier): (r: State)
    ensures m !in r.modifiers && r.modifiers == s.modifiers - {m}
    ensures r == s.(modifiers := r.modifiers)
  {
    s.(modifiers := s.modifiers - {m})
  }

  /**
   * Moves a non-empty current line to the finished lines; an empty current
   * line is left alone. Nothing emitted is lost or reordered.
   */
  function ClearLine(s: State): (r: State)
    ensures r.current == []
    ensures |s.current| == 0 ==> r == s
    ensures |s.current| > 0 ==> r.lines == s.lines + [s.current]
    ensures r == s.(lines := r.lines, current := [])
    ensures Content(r) == Content(s)
    ensures AppendsNonBlank(s.lines, r.lines)
    ensures GapsUndoubled(s) ==> GapsUndoubled(r)
  {
    if |s.current| == 0 then s
    else
      FlattenAppend(s.lines, [s.current]);
      s.(lines := s.lines + [s.current], current := [])
  }

  /** Clears the current line, then appends a blank line. */
  function AddEmptyLine(s: State): (r: State)
    ensures r.current == [] && r.lines == ClearLine(s).lines + [[]]
    ensures r == s.(lines := r.lines, current := [])
    ensures Content(r) == Content(s)
    ensures GapsUndoubled(s) ==> GapsUndoubled(r)
  {
    var t := ClearLine(s);
    FlattenAppend(t.lines, [[]]);
    t.(lines := t.lines + [[]])
  }

  /**
   * Adds a blank separator line unless the last finished line already is
   * one: afterwards the current line is empty and the last finished line is
   * blank, without ever producing two blank lines in a row.
   */
  function EnsureEmptyLine(s: State): (r: State)
    ensures IsLastEmpty(r)
    ensures IsLastEmpty(s) ==> r == s
    ensures r == s.(lines := r.lines, current := [])
    ensures Content(r) == Content(s)
    ensures Extends(s.lines, r.lines)
    ensures NoDoubleBlank(s.lines) ==> NoDoubleBlank(r.lines)
    ensures GapsUndoubled(s) ==> GapsUndoubled(r)
  {
    if IsLastEmpty(s) then s else AddEmptyLine(s)
  }

  // ---------------------------------------------------------------------
  // Context stack and style

  function PushContext(s: State, c: Context): (r: State)
    ensures r.contexts == s.contexts + [c]
    ensures r == s.(contexts := r.contexts)
  {
    s.(contexts := s.contexts + [c])
  }

  /** The top of the context stack, or `Normal` when the stack is empty. */
  function CurrentContext(s: State): Context {
    if |s.contexts| == 0 then Normal else s.contexts[|s.contexts| - 1]
  }

  /** Drops the top context; an empty stack stays empty. */
  function PopContext(s: State): (r: State)
    ensures |s.contexts| == 0 ==> r == s
    ensures r == s.(contexts := r.contexts)
  {
    if |s.contexts| == 0 then s else s.(contexts := s.contexts[..|s.contexts| - 1])
  }

  /** The base colour each context gives its words. */
  function ContextStyle(c: Context): Style {
    match c
    case Header => Plain.(fg := Some(Red))
    case RedLink => Plain.(fg := Some(Red))
    case Reflink => Plain.(fg := Some(Gray))
    case _ => Plain
  }

  /**
   * The style of a word emitted now: headers and red links are red,
   * reference links gray, every other context uncoloured; the active
   * modifiers always apply.
   */
  function CurrentStyle(s: State): (r: Style)
    ensures r.modifiers == s.modifiers
    ensures r.fg == Some(Red) <==> CurrentContext(s) == Header || CurrentContext(s) == RedLink
    ensures r.fg == Some(Gray) <==> CurrentContext(s) == Reflink
    ensures r.fg == None <==> CurrentContext(s) !in {Header, RedLink, Reflink}
  {
    Patch(ContextStyle(CurrentContext(s)), Style(None, s.modifiers))
  }

  // ---------------------------------------------------------------------
  // Wrapping

  function Spaces(n: nat): (r: string)
    ensures |r| == n && forall i | 0 <= i < n :: r[i] == ' '
  {
    seq(n, _ => ' ')
  }

  /**
   * The sentinel that opens a fresh line inside a prefixed region: the
   * padding spaces and the prefix character, counted as one column of
   * content and one of whitespace.
   */
  function LeadWord(padding: U8, prefix: char): Word {
    Word(None, Spaces(padding) + [prefix], Plain, 1, 1)
  }

  /** The sentinel prefix character inserted on continuation lines. */
  function PrefixWord(prefix: char): Word {
    Word(None, [prefix], Plain, 1, 1)
  }

  /** A continuation line starts with the padding gap, then the prefix when one is set. */
  predicate Indented(line: Line, padding: U8, prefix: Option<char>) {
    |line| > 0 && line[0] == Gap(padding) &&
    (prefix.Some? ==> |line| > 1 && line[1] == PrefixWord(prefix.value))
  }

  /** Prepends the padding gap and the prefix word to every line. */
  function Decorate(ls: seq<Line>, padding: U8, prefix: Option<char>): (r: seq<Line>)
    ensures |r| == |ls|
    ensures forall i | 0 <= i < |r| :: Indented(r[i], padding, prefix)
    ensures forall i | 0 <= i < |r| ::
      |r[i]| == |ls[i]| + (if prefix.Some? then 2 else 1) &&
      r[i][(if prefix.Some? then 2 else 1)..] == ls[i] &&
      forall j | 0 <= j < (if prefix.Some? then 2 else 1) :: IsSentinel(r[i][j])
  {
    seq(|ls|, i requires 0 <= i < |ls| =>
      [Gap(padding)] + (if prefix.Some? then [PrefixWord(prefix.value)] else []) + ls[i])
  }

  /** Columns still free on the current line. */
  function Remaining(s: State): int {
    s.width - LineWidth(s.current)
  }

  /** The batch starting with `first` begins on an empty line. */
  predicate FreshLine(s: State, first: Word) {
    |s.current| == 0 || first.width > Remaining(s)
  }

  /**
   * Prepares the line the batch starts on: clears it when the first word
   * does not fit the space left, and on a fresh line accounts for the
   * padding and adds the lead word when a prefix is set. Returns the new
   * state and the width the breaker may use on the first line.
   */
  function StartLine(s: State, first: Word): (r: (State, int))
    ensures r.0 == s.(lines := r.0.lines, current := r.0.current)
    ensures first.width > Remaining(s) ==> ClearLine(s).lines == r.0.lines
    ensures first.width <= Remaining(s) ==> r.0.lines == s.lines && s.current <= r.0.current
    ensures FreshLine(s, first) && s.prefix.Some? ==>
      r.0.current == [LeadWord(s.padding, s.prefix.value)] &&
      Content(r.0) == Content(s) + [LeadWord(s.padding, s.prefix.value)]
    ensures !(FreshLine(s, first) && s.prefix.Some?) ==> Content(r.0) == Content(s)
    ensures FreshLine(s, first) ==> r.1 == s.width - s.padding - (if s.prefix.Some? then 2 else 0)
    ensures !FreshLine(s, first) ==> r.1 == Remaining(s)
  {
    var overflow := first.width > Remaining(s);
    var s1 := if overflow then ClearLine(s) else s;
    var room := if overflow then s.width else Remaining(s);
    if |s1.current| == 0 then
      if s1.prefix.Some? then
        (s1.(current := [LeadWord(s1.padding, s1.prefix.value)]), room - s1.padding - 2)
      else (s1, room - s1.padding)
    else (s1, room)
  }

  /** The lines the breaker returns for a non-empty batch. */
  function Breaks(s: State, words: Line, fit: Fitter): (r: seq<Line>)
    requires |words| > 0
    ensures Partitions(r, words)
  {
    fit(words, StartLine(s, words[0]).1, s.width)
  }

  /** The prepared line continued with the first broken line of the batch. */
  function FillLine(s: State, words: Line, fit: Fitter): (r: State)
    requires |words| > 0
    ensures r == s.(lines := r.lines, current := r.current)
    ensures AppendsNonBlank(s.lines, r.lines)
    ensures r.lines == StartLine(s, words[0]).0.lines
    ensures r.current == StartLine(s, words[0]).0.current + Breaks(s, words, fit)[0]
    ensures |r.current| > 0
    ensures GapsUndoubled(s) && RealWords(words) ==> GapsUndoubled(r) && EndsReal(r.current)
  {
    var s2 := StartLine(s, words[0]).0;
    var first := Breaks(s, words, fit)[0];
    LinesEndReal(Breaks(s, words, fit), words);
    s2.(current := s2.current + first)
  }

  /** Breaking a batch of real words gives lines that each end in a real word. */
  lemma LinesEndReal(ls: seq<Line>, words: Line)
    requires Partitions(ls, words)
    ensures RealWords(words) ==> forall i | 0 <= i < |ls| :: EndsReal(ls[i])
  {
    if RealWords(words) {
      PartitionKeepsReal(ls, words);
      forall i | 0 <= i < |ls|
        ensures EndsReal(ls[i])
      {
        assert ls[i][|ls[i]| - 1] in ls[i];
      }
    }
  }

  /**
   * Finishes the current line and appends the continuation lines, keeping
   * the last of them open as the new current line.
   */
  function PushLines(s: State, rest: seq<Line>): (r: State)
    requires |rest| > 0
    ensures r == s.(lines := r.lines, current := r.current)
    ensures r.current == rest[|rest| - 1]
    ensures r.lines == ClearLine(s).lines + rest[..|rest| - 1]
    ensures GapsUndoubled(s) && (forall i | 0 <= i < |rest| :: EndsReal(rest[i])) ==> GapsUndoubled(r)
  {
    var t := ClearLine(s);
    t.(lines := t.lines + rest[..|rest| - 1], current := rest[|rest| - 1])
  }

  /**
   * Fills the current line with the batch and wraps the rest: the first
   * broken line continues the current line, every further line gets the
   * padding and prefix, and the last one becomes the new current line.
   */
  function WrapAppend(s: State, words: Line, fit: Fitter): (r: State)
    ensures |words| == 0 ==> r == s
    ensures r == s.(lines := r.lines, current := r.current)
    ensures AppendsNonBlank(s.lines, r.lines)
    ensures GapsUndoubled(s) && RealWords(words) ==> GapsUndoubled(r)
    ensures |words| > 0 && RealWords(words) ==> EndsReal(r.current)
  {
    if |words| == 0 then s
    else
      var s3 := FillLine(s, words, fit);
      var rest := Decorate(Breaks(s, words, fit)[1..], s.padding, s.prefix);
      LinesEndReal(Breaks(s, words, fit), words);
      DecoratedEndsReal(Breaks(s, words, fit)[1..], s.padding, s.prefix);
      if |rest| == 0 then s3 else PushLines(s3, rest)
  }

  /** Decorating only prepends, so a line that ends in a real word still does. */
  lemma DecoratedEndsReal(ls: seq<Line>, padding: U8, prefix: Option<char>)
    ensures (forall i | 0 <= i < |ls| :: EndsReal(ls[i])) ==>
      var r := Decorate(ls, padding, prefix);
      forall i | 0 <= i < |r| :: EndsReal(r[i])
  {
    var r := Decorate(ls, padding, prefix);
    var k := if prefix.Some? then 2 else 1;
    forall i | 0 <= i < |r| && EndsReal(ls[i])
      ensures EndsReal(r[i])
    {
      assert r[i][k..] == ls[i];
      assert r[i][|r[i]| - 1] == ls[i][|ls[i]| - 1];
    }
  }

  // ---------------------------------------------------------------------
  // Text

  /** Text starting with one of `,` `.` `"` `'`. */
  predicate StartsWithPunctuation(contents: string) {
    |contents| > 0 && contents[0] in {',', '.', '"', '\''}
  }

  predicate EndsWithSpace(contents: string) {
    |contents| > 0 && contents[|contents| - 1] == ' '
  }

  /**
   * One word per whitespace-separated token of `contents`, each carrying
   * the node's index, the given style and its character count as width;
   * every word is followed by a one-column gap except the last, whose gap is
   * zero unless the text ends with a space.
   */
  function TextWords(contents: string, index: nat, style: Style): (r: Line)
    ensures |r| == |SplitWhitespace(contents)|
    ensures forall i | 0 <= i < |r| ::
      r[i].index == Some(index) && r[i].content == SplitWhitespace(contents)[i] &&
      r[i].width == |r[i].content| > 0 && r[i].style == style &&
      r[i].gap == (if i == |r| - 1 && !EndsWithSpace(contents) then 0 else 1)
  {
    var ts := SplitWhitespace(contents);
    seq(|ts|, i requires 0 <= i < |ts| =>
      Word(Some(index), ts[i], style, |ts[i]|, if i == |ts| - 1 && !EndsWithSpace(contents) then 0 else 1))
  }

  // ---------------------------------------------------------------------
  // Tree walk

  /** Kinds that are separated from their surroundings by blank lines. */
  predicate IsBlock(k: Document.Kind) {
    k.Section? || k.Header? || k.Division? || k.Paragraph? || k.Hatnote? ||
    k.RedirectMessage? || k.Disambiguation? || k.OrderedList? || k.UnorderedList? ||
    k.DescriptionList?
  }

  /** Kinds that only break the line on entry and exit. */
  predicate IsLineBreaking(k: Document.Kind) {
    k.ListItem? || k.DescriptionListTerm? || k.DescriptionListDescription?
  }

  /** The context a link kind pushes. */
  function LinkContext(t: Document.LinkTarget): Context {
    match t
    case Internal(_) => WikiLink
    case Red(_) => RedLink
    case Media(_, _) => MediaLink
    case External(_, _) => ExternalLink
  }

  /** Internal links are underlined; every other link is italic and underlined. */
  function LinkModifiers(t: Document.LinkTarget): set<Modifier> {
    if t.Internal? then {Underlined} else {Italic, Underlined}
  }

  /**
   * The modifiers a kind adds on entry and takes away on exit: bold for
   * headers and bold text, italic for reference links, disambiguation
   * notices and italic text, and the link modifiers for links.
   */
  function KindModifiers(k: Document.Kind): set<Modifier> {
    match k
    case Header(_, _) => {Bold}
    case Reflink => {Italic}
    case Disambiguation => {Italic}
    case Bold => {Bold}
    case Italic => {Italic}
    case Link(target) => LinkModifiers(target)
    case _ => {}
  }

  /** The kinds that end with a gap when left: spans, reference links and links. */
  predicate EndsWithGap(k: Document.Kind) {
    k.Span? || k.Reflink? || k.Link?
  }

  /** The kinds that push a context on entry and pop it on exit. */
  predicate PushesContext(k: Document.Kind) {
    k.Header? || k.Reflink? || k.Link?
  }

  /**
   * Before text that starts with `,` `.` `"` or `'`, drops a sentinel gap
   * that ends the current line, so no space precedes the punctuation.
   */
  function Retract(s: State, contents: string): (r: State)
    ensures r == s.(current := r.current)
    ensures StartsWithPunctuation(contents) && !EndsInDoubleGap(s.current) ==> !IsLastWhitespace(r)
    ensures !StartsWithPunctuation(contents) ==> r == s
    ensures !IsLastWhitespace(s) ==> r == s
    ensures StartsWithPunctuation(contents) && IsLastWhitespace(s) ==> r.current == s.current[..|s.current| - 1]
    ensures Tokens(Content(r)) == Tokens(Content(s))
    ensures GapsUndoubled(s) ==> GapsUndoubled(r)
  {
    if StartsWithPunctuation(contents) && IsLastWhitespace(s) then
      DropSentinelTokens(s);
      s.(current := s.current[..|s.current| - 1])
    else s
  }

  /** Dropping a trailing sentinel from the current line removes no text. */
  lemma DropSentinelTokens(s: State)
    requires IsLastWhitespace(s)
    ensures Tokens(Content(s.(current := s.current[..|s.current| - 1]))) == Tokens(Content(s))
  {
    var c := s.current[..|s.current| - 1];
    assert s.current == c + [s.current[|s.current| - 1]];
    TokensAppend(c, [s.current[|s.current| - 1]]);
    TokensAppend(Flatten(s.lines), c);
    TokensAppend(Flatten(s.lines), s.current);
  }

  /** Emits the words of a text node, first retracting a gap before punctuation. */
  function RenderText(s: State, n: Document.Node, fit: Fitter): (r: State)
    requires n.kind.Text?
    ensures r == s.(lines := r.lines, current := r.current)
    ensures AppendsNonBlank(s.lines, r.lines)
    ensures GapsUndoubled(s) ==> GapsUndoubled(r)
  {
    var s1 := Retract(s, n.kind.contents);
    WrapAppend(s1, TextWords(n.kind.contents, n.index, CurrentStyle(s1)), fit)
  }

  /** The kind-specific part of entering a node. */
  function Enter(s: State, n: Document.Node, fit: Fitter): (r: State)
    ensures r.contexts == s.contexts + (if PushesContext(n.kind) then [PreContext(n.kind)] else [])
    ensures r.width == s.width
    ensures AppendsNonBlank(s.lines, r.lines)
    ensures IsLineBreaking(n.kind) ==> r.current == []
    ensures !n.kind.Text? ==> Content(r) == Content(s)
    ensures r.modifiers == s.modifiers + KindModifiers(n.kind)
    ensures n.kind.Disambiguation? ==> r.padding == DisambiguationPadding && r.prefix == Some(DisambiguationPrefix)
    ensures !n.kind.Disambiguation? ==> r.padding == s.padding && r.prefix == s.prefix
    ensures GapsUndoubled(s) ==> GapsUndoubled(r)
  {
    if n.kind.Text? || IsLineBreaking(n.kind) then
      assert KindModifiers(n.kind) == {} && !PushesContext(n.kind);
      assert s.modifiers + {} == s.modifiers && s.contexts + [] == s.contexts;
      if n.kind.Text? then RenderText(s, n, fit) else ClearLine(s)
    else
      var r := EnterStyle(s, n.kind);
      SameLines(s, r);
      r
  }

  /** Two states with the same lines have the same content and line invariants. */
  lemma SameLines(s: State, r: State)
    requires r.lines == s.lines && r.current == s.current
    ensures AppendsNonBlank(s.lines, r.lines)
    ensures Content(r) == Content(s)
    ensures GapsUndoubled(s) <==> GapsUndoubled(r)
  {
    assert r.lines[..|s.lines|] == s.lines;
  }

  /**
   * Entering a node that is neither text nor a list part: only the style,
   * the context stack, the padding and the prefix change.
   */
  function EnterStyle(s: State, k: Document.Kind): (r: State)
    ensures r == s.(modifiers := r.modifiers, contexts := r.contexts, padding := r.padding, prefix := r.prefix)
    ensures r.contexts == s.contexts + (if PushesContext(k) then [PreContext(k)] else [])
    ensures r.modifiers == s.modifiers + KindModifiers(k)
    ensures k.Disambiguation? ==> r.padding == DisambiguationPadding && r.prefix == Some(DisambiguationPrefix)
    ensures !k.Disambiguation? ==> r.padding == s.padding && r.prefix == s.prefix
  {
    match k
    case Header(_, _) => AddModifier(PushContext(s, Header), Bold)
    case Reflink => AddModifier(PushContext(s, Reflink), Italic)
    case Disambiguation =>
      AddModifier(s, Italic).(padding := DisambiguationPadding, prefix := Some(DisambiguationPrefix))
    case Bold => AddModifier(s, Bold)
    case Italic => AddModifier(s, Italic)
    case Link(target) =>
      PushContext(s, LinkContext(target)).(modifiers := s.modifiers + LinkModifiers(target))
    case _ => assert s.contexts + [] == s.contexts; s
  }

  /** What happens on entering a node, before its children. */
  function PreChildren(s: State, n: Document.Node, fit: Fitter): (r: State)
    ensures r.contexts == s.contexts + (if PushesContext(n.kind) then [PreContext(n.kind)] else [])
    ensures r.width == s.width
    ensures Extends(s.lines, r.lines)
    ensures IsBlock(n.kind) ==> IsLastEmpty(r)
    ensures IsLineBreaking(n.kind) ==> r.current == []
    ensures NoDoubleBlank(s.lines) ==> NoDoubleBlank(r.lines)
    ensures Content(r) == Content(Enter(s, n, fit))
    ensures r.modifiers == s.modifiers + KindModifiers(n.kind)
    ensures n.kind.Disambiguation? ==> r.padding == DisambiguationPadding && r.prefix == Some(DisambiguationPrefix)
    ensures !n.kind.Disambiguation? ==> r.padding == s.padding && r.prefix == s.prefix
    ensures GapsUndoubled(s) ==> GapsUndoubled(r)
  {
    var t := Enter(s, n, fit);
    NonBlankKeepsSeparation(s.lines, t.lines);
    if IsBlock(n.kind) then EnsureEmptyLine(t) else t
  }

  /** The context a context-pushing kind pushes. */
  function PreContext(k: Document.Kind): Context
    requires PushesContext(k)
  {
    match k
    case Header(_, _) => Header
    case Reflink => Reflink
    case Link(target) => LinkContext(target)
  }

  /**
   * The kind-specific part of leaving a node: its effect on the style,
   * contexts, padding and prefix, then its effect on the line. The two touch
   * different fields, so their order does not matter.
   */
  function Leave(s: State, n: Document.Node): (r: State)
    ensures PushesContext(n.kind) && |s.contexts| > 0 ==> r.contexts == s.contexts[..|s.contexts| - 1]
    ensures !PushesContext(n.kind) ==> r.contexts == s.contexts
    ensures r.width == s.width
    ensures AppendsNonBlank(s.lines, r.lines)
    ensures IsLineBreaking(n.kind) ==> r.current == []
    ensures Content(r) == Content(s) || Content(r) == Content(s) + [Gap(1)]
    ensures r.modifiers == s.modifiers - KindModifiers(n.kind)
    ensures n.kind.Disambiguation? ==>
      r.padding == SaturatingSub(s.padding, DisambiguationPadding) && r.prefix == None
    ensures !n.kind.Disambiguation? ==> r.padding == s.padding && r.prefix == s.prefix
    ensures IsLineBreaking(n.kind) ==> r.lines == ClearLine(s).lines
    ensures EndsWithGap(n.kind) ==> r.lines == s.lines && r.current == AddWhitespace(s).current
    ensures !IsLineBreaking(n.kind) && !EndsWithGap(n.kind) ==> r.lines == s.lines && r.current == s.current
    ensures GapsUndoubled(s) ==> GapsUndoubled(r)
  {
    var t := LeaveStyle(s, n.kind);
    if IsLineBreaking(n.kind) then ClearLine(t)
    else if EndsWithGap(n.kind) then AddWhitespace(t)
    else t
  }

  /** Leaving a node, apart from the line: pops its context, drops its modifiers, closes a notice. */
  function LeaveStyle(s: State, k: Document.Kind): (r: State)
    ensures r == s.(modifiers := r.modifiers, contexts := r.contexts, padding := r.padding, prefix := r.prefix)
    ensures PushesContext(k) && |s.contexts| > 0 ==> r.contexts == s.contexts[..|s.contexts| - 1]
    ensures !PushesContext(k) ==> r.contexts == s.contexts
    ensures r.modifiers == s.modifiers - KindModifiers(k)
    ensures k.Disambiguation? ==>
      r.padding == SaturatingSub(s.padding, DisambiguationPadding) && r.prefix == None
    ensures !k.Disambiguation? ==> r.padding == s.padding && r.prefix == s.prefix
  {
    match k
    case Header(_, _) => PopContext(RemoveModifier(s, Bold))
    case Reflink => RemoveModifier(PopContext(s), Italic)
    case Disambiguation =>
      RemoveModifier(s, Italic).(padding := SaturatingSub(s.padding, DisambiguationPadding), prefix := None)
    case Bold => RemoveModifier(s, Bold)
    case Italic => RemoveModifier(s, Italic)
    case Link(target) => PopContext(s).(modifiers := s.modifiers - LinkModifiers(target))
    case _ => s
  }

  /** What happens on leaving a node, after its children. */
  function PostChildren(s: State, n: Document.Node): (r: State)
    ensures PushesContext(n.kind) && |s.contexts| > 0 ==> r.contexts == s.contexts[..|s.contexts| - 1]
    ensures !PushesContext(n.kind) ==> r.contexts == s.contexts
    ensures r.width == s.width
    ensures Extends(s.lines, r.lines)
    ensures IsBlock(n.kind) ==> IsLastEmpty(r)
    ensures IsLineBreaking(n.kind) ==> r.current == []
    ensures NoDoubleBlank(s.lines) ==> NoDoubleBlank(r.lines)
    ensures Content(r) == Content(s) || Content(r) == Content(s) + [Gap(1)]
    ensures r.modifiers == s.modifiers - KindModifiers(n.kind)
    ensures n.kind.Disambiguation? ==>
      r.padding == SaturatingSub(s.padding, DisambiguationPadding) && r.prefix == None
    ensures !n.kind.Disambiguation? ==> r.padding == s.padding && r.prefix == s.prefix
    ensures IsLineBreaking(n.kind) ==> r.lines == ClearLine(s).lines
    ensures EndsWithGap(n.kind) ==> r.lines == s.lines && r.current == AddWhitespace(s).current
    ensures !IsBlock(n.kind) && !IsLineBreaking(n.kind) && !EndsWithGap(n.kind) ==>
      r.lines == s.lines && r.current == s.current
    ensures GapsUndoubled(s) ==> GapsUndoubled(r)
  {
    var t := Leave(s, n);
    NonBlankKeepsSeparation(s.lines, t.lines);
    if IsBlock(n.kind) then EnsureEmptyLine(t) else t
  }

  /**
   * Renders a node and its subtree. The context stack is left as it was
   * found, finished lines are only ever appended, and a block leaves the
   * current line empty behind a blank line.
   */
  function RenderNode(s: State, n: Document.Node, fit: Fitter): (r: State)
    ensures r.contexts == s.contexts
    ensures r.width == s.width
    ensures Extends(s.lines, r.lines)
    ensures IsBlock(n.kind) ==> IsLastEmpty(r)
    ensures IsLineBreaking(n.kind) ==> r.current == []
    ensures NoDoubleBlank(s.lines) ==> NoDoubleBlank(r.lines)
    ensures GapsUndoubled(s) ==> GapsUndoubled(r)
    decreases n, 1
  {
    var entered := PreChildren(s, n, fit);
    var walked := RenderChildren(entered, n, 0, fit);
    var r := PostChildren(walked, n);
    ExtendsTrans(s.lines, entered.lines, walked.lines);
    ExtendsTrans(s.lines, walked.lines, r.lines);
    assert PushesContext(n.kind) ==> (s.contexts + [PreContext(n.kind)])[..|s.contexts|] == s.contexts;
    r
  }

  /** Renders the children of `n` from position `i` on, in order. */
  function RenderChildren(s: State, n: Document.Node, i: nat, fit: Fitter): (r: State)
    ensures r.contexts == s.contexts
    ensures r.width == s.width
    ensures Extends(s.lines, r.lines)
    ensures NoDoubleBlank(s.lines) ==> NoDoubleBlank(r.lines)
    ensures GapsUndoubled(s) ==> GapsUndoubled(r)
    decreases n, 0, |n.children| - i
  {
    if i >= |n.children| then s
    else
      var t := RenderNode(s, n.children[i], fit);
      var r := RenderChildren(t, n, i + 1, fit);
      ExtendsTrans(s.lines, t.lines, r.lines);
      r
  }

  /**
   * Renders a whole document at the given width: an empty document yields
   * no lines; otherwise the finished lines of a walk from the root.
   */
  function RenderDocument(d: Document.Doc, width: U16, fit: Fitter): (r: seq<Line>)
    ensures d.root.None? ==> r == []
    ensures d.root.Some? && IsBlock(d.root.value.kind) ==> |r| > 0 && r[|r| - 1] == []
    ensures NoDoubleBlank(r)
    ensures forall i | 0 <= i < |r| :: !EndsInDoubleGap(r[i])
  {
    if d.root.None? then []
    else
      var s0 := Initial(width);
      assert NoDoubleBlank(s0.lines) && GapsUndoubled(s0);
      var s := RenderNode(s0, d.root.value, fit);
      assert GapsUndoubled(s);
      assert IsBlock(d.root.value.kind) ==> IsLastEmpty(s);
      s.lines
  }
}

=== FILE: renderer_properties.dfy ===
/**
 * Properties of the default renderer that relate several steps: the
 * blank-line primitives are idempotent, the context stack is a stack,
 * wrapping keeps every word in order, and a whole render emits exactly the
 * tokens of the document's text nodes in document order.
 */
module RendererProperties {
  import opened Basics
  import opened Styles
  import opened Words
  import opened DefaultRenderer
  import Document

  // ---------------------------------------------------------------------
  // Reference definition: the tokens a document's text carries

  /** The tokens of one text node: its index paired with each whitespace-separated token. */
  function TextNodeTokens(contents: string, index: nat): (r: seq<Token>)
    ensures |r| == |SplitWhitespace(contents)|
  {
    var ts := SplitWhitespace(contents);
    seq(|ts|, i requires 0 <= i < |ts| => Token(index, ts[i]))
  }

  function NodeTokens(n: Document.Node): seq<Token> {
    if n.kind.Text? then TextNodeTokens(n.kind.contents, n.index) else []
  }

  /** The tokens of a sequence of nodes, node by node. */
  function TextTokens(ns: seq<Document.Node>): seq<Token> {
    if |ns| == 0 then [] else NodeTokens(ns[0]) + TextTokens(ns[1..])
  }

  lemma {:induction false} TextTokensAppend(a: seq<Document.Node>, b: seq<Document.Node>)
    ensures TextTokens(a + b) == TextTokens(a) + TextTokens(b)
  {
    if |a| > 0 {
      assert (a + b)[1..] == a[1..] + b;
      TextTokensAppend(a[1..], b);
    } else {
      assert a + b == b;
    }
  }

  // ---------------------------------------------------------------------
  // Primitives

  /** A pushed context is the current one, and popping it restores the state. */
  lemma PushThenPop(s: State, c: Context)
    ensures CurrentContext(PushContext(s, c)) == c
    ensures PopContext(PushContext(s, c)) == s
  {
    assert PushContext(s, c).contexts[..|s.contexts|] == s.contexts;
  }

  /** A second `add_whitespace` changes nothing. */
  lemma AddWhitespaceIdempotent(s: State)
    ensures AddWhitespace(AddWhitespace(s)) == AddWhitespace(s)
  {
  }

  /** A second `clear_line` and a second `ensure_empty_line` change nothing. */
  lemma BlankLinesIdempotent(s: State)
    ensures ClearLine(ClearLine(s)) == ClearLine(s)
    ensures EnsureEmptyLine(EnsureEmptyLine(s)) == EnsureEmptyLine(s)
  {
  }

  /**
   * Leaving a node right after entering it gives back the modifiers, the
   * padding and the prefix, provided none of the kind's modifiers was
   * already active and, for a disambiguation notice, no notice was open.
   */
  lemma EnterLeaveRestores(s: State, n: Document.Node, fit: Fitter)
    requires s.modifiers !! KindModifiers(n.kind)
    requires n.kind.Disambiguation? ==> s.padding == 0 && s.prefix.None?
    ensures var r := PostChildren(PreChildren(s, n, fit), n);
      r.modifiers == s.modifiers && r.padding == s.padding && r.prefix == s.prefix
  {
    assert (s.modifiers + KindModifiers(n.kind)) - KindModifiers(n.kind) == s.modifiers;
  }

  /** A sentinel gap carries no token. */
  lemma {:induction false} AddWhitespaceTokens(s: State)
    ensures Tokens(Content(AddWhitespace(s))) == Tokens(Content(s))
  {
    if !IsLastWhitespace(s) {
      TokensAppend(Content(s), [Gap(1)]);
      assert Content(AddWhitespace(s)) == Content(s) + [Gap(1)];
    }
  }

  /** Lines whose words carry the same tokens flatten to the same tokens. */
  lemma {:induction false} FlattenSameTokens(ds: seq<Line>, ls: seq<Line>)
    requires |ds| == |ls|
    requires forall i | 0 <= i < |ls| :: Tokens(ds[i]) == Tokens(ls[i])
    ensures Tokens(Flatten(ds)) == Tokens(Flatten(ls))
  {
    if |ls| > 0 {
      FlattenSameTokens(ds[1..], ls[1..]);
      TokensAppend(ds[0], Flatten(ds[1..]));
      TokensAppend(ls[0], Flatten(ls[1..]));
    }
  }

  /** Indenting lines adds only sentinels. */
  lemma DecorateTokens(ls: seq<Line>, padding: U8, prefix: Option<char>)
    ensures Tokens(Flatten(Decorate(ls, padding, prefix))) == Tokens(Flatten(ls))
  {
    var ds := Decorate(ls, padding, prefix);
    var k := if prefix.Some? then 2 else 1;
    forall i | 0 <= i < |ls|
      ensures Tokens(ds[i]) == Tokens(ls[i])
    {
      assert ds[i] == ds[i][..k] + ls[i];
      TokensAppend(ds[i][..k], ls[i]);
    }
    FlattenSameTokens(ds, ls);
  }

  /** Words that all carry an index yield one token each. */
  lemma {:induction false} TokensOfReal(ws: Line)
    requires forall i | 0 <= i < |ws| :: ws[i].index.Some?
    ensures Tokens(ws) == seq(|ws|, i requires 0 <= i < |ws| => Token(ws[i].index.value, ws[i].content))
  {
    if |ws| > 0 {
      TokensOfReal(ws[1..]);
    }
  }

  /** The words of a text node carry exactly the node's tokens. */
  lemma TextWordsTokens(contents: string, index: nat, style: Style)
    ensures Tokens(TextWords(contents, index, style)) == TextNodeTokens(contents, index)
  {
    TokensOfReal(TextWords(contents, index, style));
  }

  // ---------------------------------------------------------------------
  // Wrapping

  /** Preparing the line adds at most the lead word, which is a sentinel. */
  lemma StartLineTokens(s: State, first: Word)
    ensures Tokens(Content(StartLine(s, first).0)) == Tokens(Content(s))
  {
    if FreshLine(s, first) && s.prefix.Some? {
      TokensAppend(Content(s), [LeadWord(s.padding, s.prefix.value)]);
    }
  }

  /** Moving the last line of `rest` to the current line keeps the flattened content. */
  lemma {:induction false} SplitLastLine(lines: seq<Line>, rest: seq<Line>)
    requires |rest| > 0
    ensures Flatten(lines + rest[..|rest| - 1]) + rest[|rest| - 1] == Flatten(lines) + Flatten(rest)
  {
    var k := |rest| - 1;
    assert rest == rest[..k] + [rest[k]];
    FlattenAppend(rest[..k], [rest[k]]);
    FlattenAppend(lines, rest[..k]);
  }

  /** The filled line adds the tokens of the first broken line. */
  lemma FillLineContent(s: State, words: Line, fit: Fitter)
    requires |words| > 0
    ensures Tokens(Content(FillLine(s, words, fit))) == Tokens(Content(s)) + Tokens(Breaks(s, words, fit)[0])
  {
    var s2 := StartLine(s, words[0]).0;
    var first := Breaks(s, words, fit)[0];
    StartLineTokens(s, words[0]);
    assert Content(FillLine(s, words, fit)) == Content(s2) + first;
    TokensAppend(Content(s2), first);
  }

  /** The broken lines carry the batch's tokens. */
  lemma BreaksTokens(s: State, words: Line, fit: Fitter)
    requires |words| > 0
    ensures Tokens(Breaks(s, words, fit)[0]) + Tokens(Flatten(Breaks(s, words, fit)[1..])) == Tokens(words)
  {
    var wrapped := Breaks(s, words, fit);
    assert Flatten(wrapped) == wrapped[0] + Flatten(wrapped[1..]);
    TokensAppend(wrapped[0], Flatten(wrapped[1..]));
  }

  /** The filled line plus the remaining broken lines carry the batch's tokens. */
  lemma FillLineTokens(s: State, words: Line, fit: Fitter)
    requires |words| > 0
    ensures Tokens(Content(FillLine(s, words, fit))) + Tokens(Flatten(Breaks(s, words, fit)[1..])) ==
      Tokens(Content(s)) + Tokens(words)
  {
    var wrapped := Breaks(s, words, fit);
    FillLineContent(s, words, fit);
    BreaksTokens(s, words, fit);
    AppendAssoc(Tokens(Content(s)), Tokens(wrapped[0]), Tokens(Flatten(wrapped[1..])));
  }

  /** Pushing continuation lines appends exactly their content. */
  lemma PushLinesContent(s: State, rest: seq<Line>)
    requires |rest| > 0
    ensures Tokens(Content(PushLines(s, rest))) == Tokens(Content(s)) + Tokens(Flatten(rest))
  {
    var t := ClearLine(s);
    SplitLastLine(t.lines, rest);
    assert Content(t) == Flatten(t.lines);
    assert Content(PushLines(s, rest)) == Content(s) + Flatten(rest);
    TokensAppend(Content(s), Flatten(rest));
  }

  /**
   * `wrap_append` keeps every word: the tokens of everything emitted grow by
   * exactly the tokens of the batch, in order.
   */
  lemma WrapAppendTokens(s: State, words: Line, fit: Fitter)
    ensures Tokens(Content(WrapAppend(s, words, fit))) == Tokens(Content(s)) + Tokens(words)
  {
    if |words| > 0 {
      var wrapped := Breaks(s, words, fit);
      var s3 := FillLine(s, words, fit);
      var rest := Decorate(wrapped[1..], s.padding, s.prefix);
      FillLineTokens(s, words, fit);
      if |rest| > 0 {
        PushLinesContent(s3, rest);
        DecorateTokens(wrapped[1..], s.padding, s.prefix);
      } else {
        assert Flatten(wrapped[1..]) == [];
      }
    }
  }

  /**
   * The layout `wrap_append` produces:
   * - when the first word does not fit what is left of a non-empty current
   *   line, that line is finished unchanged before anything else;
   * - when it fits, the batch continues the current line;
   * - on a fresh line inside a prefixed region, the first line of the batch
   *   starts with the lead word (padding and prefix);
   * - every line after the first line of the batch starts with the padding
   *   gap, followed by the prefix when one is set.
   */
  lemma WrapAppendLayout(s: State, words: Line, fit: Fitter)
    requires |words| > 0
    ensures var r := WrapAppend(s, words, fit);
      words[0].width > Remaining(s) && |s.current| > 0 ==>
        |r.lines| > |s.lines| && r.lines[|s.lines|] == s.current
    ensures var r := WrapAppend(s, words, fit);
      words[0].width <= Remaining(s) ==>
        s.current <= (if |r.lines| > |s.lines| then r.lines[|s.lines|] else r.current)
    ensures var r := WrapAppend(s, words, fit);
      var p := |ClearLine(s).lines|;
      FreshLine(s, words[0]) && s.prefix.Some? ==>
        |r.lines| >= p &&
        (if |r.lines| > p then r.lines[p] else r.current)[..1] == [LeadWord(s.padding, s.prefix.value)]
    ensures var r := WrapAppend(s, words, fit);
      var k := |Breaks(s, words, fit)|;
      k > 1 ==>
        Indented(r.current, s.padding, s.prefix) && |r.lines| >= k - 2 &&
        forall i | |r.lines| - (k - 2) <= i < |r.lines| :: Indented(r.lines[i], s.padding, s.prefix)
  {
    var r := WrapAppend(s, words, fit);
    var s2 := StartLine(s, words[0]).0;
    var wrapped := Breaks(s, words, fit);
    var s3 := FillLine(s, words, fit);
    var rest := Decorate(wrapped[1..], s.padding, s.prefix);
    if FreshLine(s, words[0]) {
      assert s2.lines == ClearLine(s).lines;
    }
    if |rest| > 0 {
      assert ClearLine(s3).lines == s2.lines + [s3.current];
      assert r.lines == s2.lines + [s3.current] + rest[..|rest| - 1];
    }
  }

  // ---------------------------------------------------------------------
  // The tree walk

  /** Entering a node emits the tokens of that node and nothing else. */
  lemma PreChildrenTokens(s: State, n: Document.Node, fit: Fitter)
    ensures Tokens(Content(PreChildren(s, n, fit))) == Tokens(Content(s)) + NodeTokens(n)
  {
    if n.kind.Text? {
      var s1 := Retract(s, n.kind.contents);
      var ws := TextWords(n.kind.contents, n.index, CurrentStyle(s1));
      assert Enter(s, n, fit) == WrapAppend(s1, ws, fit);
      WrapAppendTokens(s1, ws, fit);
      TextWordsTokens(n.kind.contents, n.index, CurrentStyle(s1));
    }
  }

  /** Leaving a node emits no tokens. */
  lemma PostChildrenTokens(s: State, n: Document.Node)
    ensures Tokens(Content(PostChildren(s, n))) == Tokens(Content(s))
  {
    TokensAppend(Content(s), [Gap(1)]);
  }

  /** Leaving a node after its children adds no token. */
  lemma LeaveNodeTokens(s: State, n: Document.Node, fit: Fitter)
    ensures Tokens(Content(RenderNode(s, n, fit))) ==
      Tokens(Content(RenderChildren(PreChildren(s, n, fit), n, 0, fit)))
  {
    PostChildrenTokens(RenderChildren(PreChildren(s, n, fit), n, 0, fit), n);
  }

  lemma DescendantsTokens(n: Document.Node)
    ensures TextTokens(Document.Descendants(n)) == NodeTokens(n) + TextTokens(Document.Forest(n.children))
  {
    TextTokensAppend([n], Document.Forest(n.children));
    assert TextTokens([n]) == NodeTokens(n);
  }

  /**
   * Rendering a node appends, in order, exactly the tokens of the text
   * nodes of its subtree in pre-order.
   */
  lemma {:induction false} RenderNodeTokens(s: State, n: Document.Node, fit: Fitter)
    ensures Tokens(Content(RenderNode(s, n, fit))) ==
      Tokens(Content(s)) + TextTokens(Document.Descendants(n))
    decreases n, 1
  {
    var s1 := PreChildren(s, n, fit);
    PreChildrenTokens(s, n, fit);
    RenderChildrenTokens(s1, n, 0, fit);
    assert n.children[0..] == n.children;
    LeaveNodeTokens(s, n, fit);
    DescendantsTokens(n);
    AppendAssoc(Tokens(Content(s)), NodeTokens(n), TextTokens(Document.Forest(n.children)));
  }

  lemma {:induction false} RenderChildrenTokens(s: State, n: Document.Node, i: nat, fit: Fitter)
    requires i <= |n.children|
    ensures Tokens(Content(RenderChildren(s, n, i, fit))) ==
      Tokens(Content(s)) + TextTokens(Document.Forest(n.children[i..]))
    decreases n, 0, |n.children| - i
  {
    if i < |n.children| {
      var s1 := RenderNode(s, n.children[i], fit);
      assert RenderChildren(s, n, i, fit) == RenderChildren(s1, n, i + 1, fit);
      RenderNodeTokens(s, n.children[i], fit);
      RenderChildrenTokens(s1, n, i + 1, fit);
      var c := n.children[i..];
      assert c[0] == n.children[i] && c[1..] == n.children[i + 1..];
      var d := Document.Descendants(n.children[i]);
      var f := Document.Forest(n.children[i + 1..]);
      assert Document.Forest(c) == d + f;
      TextTokensAppend(d, f);
      AppendAssoc(Tokens(Content(s)), TextTokens(d), TextTokens(f));
    }
  }

  /**
   * The finished lines of a render carry a prefix of the document's text
   * tokens in document order (the final partial line is not returned), and
   * all of them when the root is a block, which always ends its render on
   * a blank line.
   */
  lemma RenderDocumentTokens(d: Document.Doc, width: U16, fit: Fitter)
    ensures Tokens(Flatten(RenderDocument(d, width, fit))) <= TextTokens(Document.Nodes(d))
    ensures d.root.Some? && IsBlock(d.root.value.kind) ==>
      Tokens(Flatten(RenderDocument(d, width, fit))) == TextTokens(Document.Nodes(d))
  {
    if d.root.Some? {
      var r := RenderNode(Initial(width), d.root.value, fit);
      assert RenderDocument(d, width, fit) == r.lines;
      assert Document.Nodes(d) == Document.Descendants(d.root.value);
      RenderNodeTokens(Initial(width), d.root.value, fit);
      assert Content(Initial(width)) == [];
      assert Tokens(Content(r)) == TextTokens(Document.Nodes(d));
      FinishedTokens(r);
    }
  }

  /** The finished lines hold a prefix of the emitted text, all of it once the current line is empty. */
  lemma FinishedTokens(r: State)
    ensures Tokens(Flatten(r.lines)) <= Tokens(Content(r))
    ensures |r.current| == 0 ==> Tokens(Flatten(r.lines)) == Tokens(Content(r))
  {
    TokensAppend(Flatten(r.lines), r.current);
    assert |r.current| == 0 ==> Content(r) == Flatten(r.lines);
  }
}

=== FILE: search.dfy ===
/**
 * Linear searches in order, as iterator `find` and `filter(..).last()` do.
 */
module Search {
  import opened Basics

  /** Position of the first element satisfying `p`, if any. */
  function FindFirst<T>(xs: seq<T>, p: T -> bool): (r: Option<nat>)
    ensures r.None? <==> forall j | 0 <= j < |xs| :: !p(xs[j])
    ensures r.Some? ==> r.value < |xs| && p(xs[r.value])
    ensures r.Some? ==> forall j | 0 <= j < r.value :: !p(xs[j])
  {
    if |xs| == 0 then None
    else if p(xs[0]) then Some(0)
    else
      match FindFirst(xs[1..], p)
      case None => None
      case Some(k) => Some(k + 1)
  }

  /** Position of the last element satisfying `p`, if any. */
  function FindLast<T>(xs: seq<T>, p: T -> bool): (r: Option<nat>)
    ensures r.None? <==> forall j | 0 <= j < |xs| :: !p(xs[j])
    ensures r.Some? ==> r.value < |xs| && p(xs[r.value])
    ensures r.Some? ==> forall j | r.value < j < |xs| :: !p(xs[j])
  {
    if |xs| == 0 then None
    else if p(xs[|xs| - 1]) then Some(|xs| - 1)
    else FindLast(xs[..|xs| - 1], p)
  }
}

=== FILE: styles.dfy ===
/**
 * Terminal styles, reduced to what the renderer assigns: an optional
 * foreground colour and a set of text modifiers.
 */
module Styles {
  import opened Basics

  datatype Color = Red | Gray

  datatype Modifier = Bold | Italic | Underlined

  datatype Style = Style(fg: Option<Color>, modifiers: set<Modifier>)

  /** `Style::default()`: no colour, no modifiers. */
  const Plain: Style := Style(None, {})

  /**
   * `base.patch(over)`: the colour of `over` wins when it has one, and the
   * modifiers of both apply.
   */
  function Patch(base: Style, over: Style): (r: Style)
    ensures over == Plain ==> r == base
    ensures base == Plain ==> r == over
    ensures over.fg.None? ==> r.fg == base.fg
    ensures over.fg.Some? ==> r.fg == over.fg
    ensures base.modifiers <= r.modifiers && over.modifiers <= r.modifiers
    ensures forall m | m in r.modifiers :: m in base.modifiers || m in over.modifiers
  {
    Style(if over.fg.Some? then over.fg else base.fg, base.modifiers + over.modifiers)
  }

  /**
   * Patching is associative, and patching again with the same style changes
   * nothing, so a chain of patches can be regrouped and repeats collapse.
   */
  lemma PatchLaws(a: Style, b: Style, c: Style)
    ensures Patch(Patch(a, b), c) == Patch(a, Patch(b, c))
    ensures Patch(Patch(a, b), b) == Patch(a, b)
  {
    assert (a.modifiers + b.modifiers) + c.modifiers == a.modifiers + (b.modifiers + c.modifiers);
    assert (a.modifiers + b.modifiers) + b.modifiers == a.modifiers + b.modifiers;
  }
}

=== FILE: words.dfy ===
/**
 * Words, lines and the boundary with the optimal-fit line breaker.
 * A word either carries the origin index of the node it came from or is a
 * sentinel (`usize::MAX` in the program): a synthetic gap, indentation or
 * prefix that never belongs to any node.
 */
module Words {
  import opened Basics
  import opened Styles

  /**
   * A styled fragment. `width` is the content width in columns and `gap` the
   * whitespace printed after it; both only ever hold whole numbers.
   */
  datatype Word = Word(index: Option<nat>, content: string, style: Style, width: nat, gap: nat)

  type Line = seq<Word>

  predicate IsSentinel(w: Word) {
    w.index.None?
  }

  /** Sequence concatenation regroups freely. */
  lemma AppendAssoc<T>(a: seq<T>, b: seq<T>, c: seq<T>)
    ensures (a + b) + c == a + (b + c)
  {
  }

  /** Concatenation of lines, in order. */
  function Flatten(ls: seq<Line>): (r: Line)
    ensures |ls| == 1 ==> r == ls[0]
  {
    if |ls| == 0 then [] else ls[0] + Flatten(ls[1..])
  }

  lemma {:induction false} FlattenAppend(a: seq<Line>, b: seq<Line>)
    ensures Flatten(a + b) == Flatten(a) + Flatten(b)
  {
    if |a| > 0 {
      assert (a + b)[1..] == a[1..] + b;
      FlattenAppend(a[1..], b);
    } else {
      assert a + b == b;
    }
  }

  /** Columns taken by a line: every word's content plus its trailing gap. */
  function LineWidth(line: Line): nat {
    if |line| == 0 then 0 else line[0].width + line[0].gap + LineWidth(line[1..])
  }

  /** What a real word says about the document: its origin and its text. */
  datatype Token = Token(index: nat, content: string)

  /** The real words of a line as tokens, in order; sentinels contribute nothing. */
  function Tokens(ws: Line): (r: seq<Token>)
    ensures |r| <= |ws|
    ensures (forall i | 0 <= i < |ws| :: IsSentinel(ws[i])) <==> r == []
  {
    if |ws| == 0 then []
    else (if IsSentinel(ws[0]) then [] else [Token(ws[0].index.value, ws[0].content)]) + Tokens(ws[1..])
  }

  lemma {:induction false} TokensAppend(a: Line, b: Line)
    ensures Tokens(a + b) == Tokens(a) + Tokens(b)
  {
    if |a| > 0 {
      assert (a + b)[1..] == a[1..] + b;
      TokensAppend(a[1..], b);
    } else {
      assert a + b == b;
    }
  }

  /** `ls` splits `ws` into non-empty lines, keeping every word in order. */
  predicate Partitions(ls: seq<Line>, ws: Line) {
    |ls| > 0 && (forall i | 0 <= i < |ls| :: |ls[i]| > 0) && Flatten(ls) == ws
  }

  /** Every word of the line belongs to a node: none is a sentinel. */
  predicate RealWords(line: Line) {
    forall w | w in line :: !IsSentinel(w)
  }

  /** Every word of every line shows up in the concatenation. */
  lemma {:induction false} InFlatten(ls: seq<Line>, i: nat, j: nat)
    requires i < |ls| && j < |ls[i]|
    ensures ls[i][j] in Flatten(ls)
  {
    if i > 0 {
      InFlatten(ls[1..], i - 1, j);
      assert ls[1..][i - 1] == ls[i];
    }
  }

  /** Breaking a batch of real words gives lines of real words. */
  lemma PartitionKeepsReal(ls: seq<Line>, ws: Line)
    requires Partitions(ls, ws) && RealWords(ws)
    ensures forall i | 0 <= i < |ls| :: RealWords(ls[i])
  {
    forall i, j | 0 <= i < |ls| && 0 <= j < |ls[i]|
      ensures !IsSentinel(ls[i][j])
    {
      InFlatten(ls, i, j);
    }
  }

  /**
   * The optimal-fit line breaker: given the words, the width left on the
   * first line and the width of every later line, it returns the lines.
   */
  type Fit = (Line, int, int) -> seq<Line>

  /**
   * The only thing assumed about the breaker: a non-empty batch comes back
   * as a partition of that batch into non-empty lines.
   */
  ghost predicate IsFitter(f: Fit) {
    forall ws: Line, first: int, rest: int :: |ws| > 0 ==> Partitions(f(ws, first, rest), ws)
  }

  type Fitter = f: Fit | IsFitter(f) witness (ws: Line, first: int, rest: int) => [ws]

  // ---------------------------------------------------------------------
  // Whitespace splitting (`str::split_whitespace`)

  /** Unicode White_Space, as Rust's `char::is_whitespace` defines it. */
  predicate IsWhitespace(c: char) {
    ('\t' <= c <= '\r') || c == ' ' || c == '\U{0085}' || c == '\U{00A0}' ||
    c == '\U{1680}' || ('\U{2000}' <= c <= '\U{200A}') || c == '\U{2028}' ||
    c == '\U{2029}' || c == '\U{202F}' || c == '\U{205F}' || c == '\U{3000}'
  }

  /** The characters of `s` that are not whitespace, in order. */
  function StripWhitespace(s: string): string {
    if |s| == 0 then []
    else (if IsWhitespace(s[0]) then [] else [s[0]]) + StripWhitespace(s[1..])
  }

  lemma {:induction false} StripWhitespaceAppend(a: string, b: string)
    ensures StripWhitespace(a + b) == StripWhitespace(a) + StripWhitespace(b)
  {
    if |a| > 0 {
      assert (a + b)[1..] == a[1..] + b;
      StripWhitespaceAppend(a[1..], b);
    } else {
      assert a + b == b;
    }
  }

  lemma {:induction false} StripWhitespaceKeeps(s: string)
    requires forall j | 0 <= j < |s| :: !IsWhitespace(s[j])
    ensures StripWhitespace(s) == s
  {
    if |s| > 0 {
      StripWhitespaceKeeps(s[1..]);
    }
  }

  function Concat(ts: seq<string>): string {
    if |ts| == 0 then [] else ts[0] + Concat(ts[1..])
  }

  /** Length of the run of non-whitespace characters that starts `s`. */
  function TokenLength(s: string): (k: nat)
    ensures k <= |s|
    ensures forall j | 0 <= j < k :: !IsWhitespace(s[j])
    ensures k == |s| || IsWhitespace(s[k])
  {
    if |s| == 0 || IsWhitespace(s[0]) then 0 else 1 + TokenLength(s[1..])
  }

  /** Position `i` starts a maximal run of non-whitespace characters. */
  predicate RunStart(s: string, i: nat) {
    0 <= i < |s| && !IsWhitespace(s[i]) && (i == 0 || IsWhitespace(s[i - 1]))
  }

  /** The run of non-whitespace characters that starts at position `i`. */
  function RunAt(s: string, i: nat): string
    requires i <= |s|
  {
    s[i..i + TokenLength(s[i..])]
  }

  /**
   * Reference scan for `split_whitespace`: the runs of `s` that start at
   * position `from` or later, left to right.
   */
  function Runs(s: string, from: nat): seq<string>
    decreases |s| - from
  {
    if from >= |s| then []
    else if RunStart(s, from) then [RunAt(s, from)] + Runs(s, from + 1)
    else Runs(s, from + 1)
  }

  /**
   * Dropping a prefix of `s` that ends at a whitespace boundary keeps every
   * run start and every run of the rest where it was, shifted by `d`.
   */
  lemma ShiftRun(s: string, d: nat, j: nat)
    requires 0 < d <= |s| && j < |s| - d
    requires IsWhitespace(s[d - 1]) || IsWhitespace(s[d])
    ensures RunStart(s[d..], j) <==> RunStart(s, d + j)
    ensures RunAt(s[d..], j) == RunAt(s, d + j)
  {
    assert s[d..][j..] == s[d + j..];
  }

  /** The runs of `s[d..]` are the runs of `s` from `d` on. */
  lemma {:induction false} ShiftRuns(s: string, d: nat, j: nat)
    requires 0 < d <= |s| && j <= |s| - d
    requires d == |s| || IsWhitespace(s[d - 1]) || IsWhitespace(s[d])
    ensures Runs(s[d..], j) == Runs(s, d + j)
    decreases |s| - d - j
  {
    if j < |s| - d {
      ShiftRun(s, d, j);
      ShiftRuns(s, d, j + 1);
    }
  }

  /** No run starts inside the first run, so the runs after its start are those after its end. */
  lemma {:induction false} SkipRun(s: string, i: nat)
    requires 0 < i <= TokenLength(s)
    ensures Runs(s, i) == Runs(s, TokenLength(s))
    decreases TokenLength(s) - i
  {
    if i < TokenLength(s) {
      assert !RunStart(s, i);
      SkipRun(s, i + 1);
    }
  }

  /**
   * `s.split_whitespace()`: the maximal runs of non-whitespace characters,
   * as the reference scan finds them. Every piece is non-empty and free of
   * whitespace, and together they hold exactly the non-whitespace
   * characters of `s`, in order.
   */
  function SplitWhitespace(s: string): (r: seq<string>)
    ensures forall i | 0 <= i < |r| :: |r[i]| > 0 && forall j | 0 <= j < |r[i]| :: !IsWhitespace(r[i][j])
    ensures Concat(r) == StripWhitespace(s)
    ensures r == Runs(s, 0)
    decreases |s|
  {
    if |s| == 0 then []
    else if IsWhitespace(s[0]) then
      assert StripWhitespace(s) == StripWhitespace(s[1..]);
      ShiftRuns(s, 1, 0);
      SplitWhitespace(s[1..])
    else
      var k := TokenLength(s);
      var rest := SplitWhitespace(s[k..]);
      FirstRunPieces(s, rest);
      FirstRunStripped(s, rest);
      FirstRun(s, rest);
      [s[..k]] + rest
  }

  /** A leading run is a non-empty piece free of whitespace. */
  lemma FirstRunPieces(s: string, rest: seq<string>)
    requires 0 < |s| && !IsWhitespace(s[0])
    requires forall i | 0 <= i < |rest| :: |rest[i]| > 0 && forall j | 0 <= j < |rest[i]| :: !IsWhitespace(rest[i][j])
    ensures var r := [s[..TokenLength(s)]] + rest;
      forall i | 0 <= i < |r| :: |r[i]| > 0 && forall j | 0 <= j < |r[i]| :: !IsWhitespace(r[i][j])
  {
    var r := [s[..TokenLength(s)]] + rest;
    forall i | 0 <= i < |r|
      ensures |r[i]| > 0 && forall j | 0 <= j < |r[i]| :: !IsWhitespace(r[i][j])
    {
      if i > 0 {
        assert r[i] == rest[i - 1];
      }
    }
  }

  /** A leading run followed by the stripped rest is the stripped string. */
  lemma FirstRunStripped(s: string, rest: seq<string>)
    requires 0 < |s| && !IsWhitespace(s[0])
    requires Concat(rest) == StripWhitespace(s[TokenLength(s)..])
    ensures Concat([s[..TokenLength(s)]] + rest) == StripWhitespace(s)
  {
    var k := TokenLength(s);
    assert s == s[..k] + s[k..];
    StripWhitespaceAppend(s[..k], s[k..]);
    StripWhitespaceKeeps(s[..k]);
    assert ([s[..k]] + rest)[1..] == rest;
  }

  /** The runs of a string that starts with a run: that run, then the runs after it. */
  lemma FirstRun(s: string, rest: seq<string>)
    requires 0 < |s| && !IsWhitespace(s[0])
    requires rest == Runs(s[TokenLength(s)..], 0)
    ensures Runs(s, 0) == [s[..TokenLength(s)]] + rest
  {
    var k := TokenLength(s);
    assert RunStart(s, 0);
    assert s[0..] == s;
    SkipRun(s, 1);
    ShiftRuns(s, k, 0);
  }
}
